=== FILE: README.md ===
# Stylus.php, modelled in Dafny

A model of the compiler core of the PHP class `Stylus\Stylus`. It turns a
Stylus style sheet into CSS, working line by line:

- Every input line is classified: a mixin declaration `name(params)`, a
  variable `name = value`, a block of selectors, or an `@import`.
- A block is a run of selector lines at one indent, followed by a body at
  the indent of the line after them. The body holds properties and nested
  blocks.
- A property line becomes `name: value;`. Its variables are substituted, and
  a property that names a mixin is replaced by the mixin's body, with its
  parameters bound.
- An import puts the lines of another file in front of the remaining lines.
- At the end, every block that has declarations is written as a CSS rule, and
  the tables are cleared.

The model is written in the functional style. The engine is an immutable
`Engine.Stylus` value, and every PHP method is a function from a state to a
`Result`. Where the PHP would read some undefined array indices, or would
loop forever, the model fails with an `Error` that names the case; the other
undefined reads are read as PHP reads a null string, as `""` (see Left out). The regular
expressions are written out as character-level predicates and functions,
with PCRE's greedy matching and backtracking where it changes the match
(`Patterns`, `Substitute`, `Classify`); `$` is read as the end of the
subject (see Left out).

Modules, in dependency order:

- `Results`: the error, option and result types.
- `Text`: character classes, runs, trimming, joining and splitting.
- `Indent`: `getIndent`, `isIndented` and PHP's `>` on indents.
- `Classify`: the `is*` line tests.
- `Substitute`: `insertVariables`.
- `Patterns`: the `preg_match`/`preg_replace` patterns of `call`, `parseLine`, `addFunction` and `addVariable`.
- `Mixins`: `addFunction`, `call` and `parseLine`.
- `MixinProps`: properties of `call` and `parseLine`.
- `Blocks`: `addBlock`.
- `BlockProps`: properties of the block header.
- `BodyProps`: properties of the block body.
- `Emit`: `convertBlocksToCSS`.
- `Engine`: the state, `assign`, `addVariable`, `import` and `render`.
- `RenderProps`: properties of the driver, including one complete rendering worked out.

Some behaviour of the code is surprising:

- `import` removes the directive and puts the imported lines in front of ALL
  the remaining lines, not at the directive. `render` then goes on at the
  same index `i`. So the first `i` imported lines are never read, and the
  lines that stood before the directive move to index `|imported|`; those of
  them that land at index `i` or later are read a second time
  (`Engine.Import`, `RenderProps.ImportResumes`,
  `RenderProps.ImportSkipsImported`).
- Inside a block body, a line such as `color = red` is a property, not an
  assignment. It becomes `color: = red;`, because the body loop never tests
  for variable declarations.
- At the top level, when it is the last line or the next line is not
  deeper, the line `  ,` passes the comma-list test of
  `isBlockDeclaration` but is not consumed by `addBlock`. The PHP `for` loop
  then returns to the same line forever. The model fails with `NoProgress`
  there (`RenderProps.IndentedCommaMakesNoProgress`).

## Model

| member | source | states |
|---|---|---|
| Indent.GetIndent | src/Stylus/Stylus.php:101-108 | the indent is a whitespace prefix of the line, it is maximal (the next character is not whitespace), and it is empty for an unindented line |
| Indent.IndentedIffIndent | src/Stylus/Stylus.php:92-108 | a line is indented exactly when its indent is non-empty |
| Indent.IndentUnique | src/Stylus/Stylus.php:101-108 | any maximal whitespace prefix of a line is its indent |
| Indent.ExtensionIsGreater | src/Stylus/Stylus.php:120 | when one indent is a proper prefix of another, PHP's string `>` ranks the longer one as deeper |
| Indent.GreaterIrreflexive | src/Stylus/Stylus.php:120 | no indent is deeper than itself, so a line followed by one at its own indent is not a header by the deeper-next-line test |
| Indent.TabNotDeeperThanSpaces | src/Stylus/Stylus.php:120 | depth is a byte-wise comparison, not a length: a tab is not deeper than two spaces, although two spaces are deeper than a tab |
| Classify.IndentedTestsFixIndent | src/Stylus/Stylus.php:116-121 | a line that passes the list-item test or the `&` test at some indent has exactly that indent |
| Classify.FunctionNotVariable | src/Stylus/Stylus.php:140-155 | no line is both a mixin declaration and a variable declaration |
| Classify.ImportNotDeclaration | src/Stylus/Stylus.php:140-166 | an `@import` line is neither a mixin nor a variable declaration |
| Classify.NotSelectorIsPlain | src/Stylus/Stylus.php:120 | a selector whose first parenthesis directly follows `:not` passes the plain-selector test, whatever comes after |
| Classify.ParenthesisIsNotPlain | src/Stylus/Stylus.php:120 | a selector with a parenthesis that no `:not` precedes fails the plain-selector test |
| Substitute.HeadLength | src/Stylus/Stylus.php:176 | the head is a non-empty run of non-space characters followed by all the whitespace after it, and there is none exactly when the line is empty, starts with whitespace, or has no whitespace |
| Substitute.InsertVariablesLine | src/Stylus/Stylus.php:174-178 | in line mode the substitution succeeds exactly when the line has a non-space head followed by whitespace, and that head is kept unchanged |
| Substitute.SingleToken | src/Stylus/Stylus.php:189-191 | an argument without comma or whitespace is replaced by its variable's value when it is bound, and is kept otherwise |
| Substitute.ReplaceTokensUnbound | src/Stylus/Stylus.php:183-188 | tokens that are not bound variables change nothing |
| Substitute.NoBoundToken | src/Stylus/Stylus.php:180-191 | an argument in which no token is a bound variable comes back unchanged |
| Substitute.ReplaceFromAbsent | src/Stylus/Stylus.php:186 | the replacement leaves a text in which the variable does not occur unchanged |
| Substitute.WholeTokenReplaced | src/Stylus/Stylus.php:186 | a variable on its own, as a word or in braces, is replaced by its value |
| Patterns.DeclarationGap | src/Stylus/Stylus.php:246 | the gap `\s*:?\s*` between a declaration's name and its value never swallows a `;` |
| Patterns.DelegationGap | src/Stylus/Stylus.php:210 | the gap `:?\s*\(?\s*` between a delegation's name and its arguments never swallows a `)` or a `;` |
| Patterns.MatchPattern | src/Stylus/Stylus.php:210 | a match of the delegation or declaration pattern captures a non-empty name that starts the line and holds no stop character |
| Patterns.Reformat | src/Stylus/Stylus.php:230-232 | the rewrite to `name: value;` either leaves the line alone or produces a line ending in `;`, with `$` read as the end of the subject (see Left out) |
| Patterns.ReformatCanonical | src/Stylus/Stylus.php:230-232 | a line already written `name: value;` is left as it is |
| Patterns.ReformatIdempotent | src/Stylus/Stylus.php:230-232 | rewriting twice is rewriting once |
| Patterns.StripQuotes | src/Stylus/Stylus.php:222 | the quotes are removed only from an argument of three or more characters that starts and ends with the same quote; any other argument is unchanged, with `$` read as the end of the subject (see Left out) |
| Patterns.StripQuotesRoundTrip | src/Stylus/Stylus.php:222 | quoting a non-empty argument and stripping the quotes gives the argument back |
| Patterns.StripQuotesUnquoted | src/Stylus/Stylus.php:222 | an argument that does not start with a quote is unchanged |
| Patterns.StripAssignment | src/Stylus/Stylus.php:344 | the stored value of a variable holds no `;` |
| Patterns.VariableName | src/Stylus/Stylus.php:342-343 | the variable pattern captures a non-empty name at the start of the line |
| Patterns.FunctionHeader | src/Stylus/Stylus.php:321-322 | the header pattern captures a non-empty name without `(` and a parameter list without `)` |
| Mixins.FormalParams | src/Stylus/Stylus.php:324 | a mixin has parameters exactly when its parameter text is truthy in PHP |
| Mixins.BodyEnd | src/Stylus/Stylus.php:326-328 | the body runs over the indented lines after the header and stops at the first line that is not indented |
| Mixins.AddFunction | src/Stylus/Stylus.php:319-332 | a mixin declaration fails exactly when its header has no closing parenthesis; otherwise the cursor stays within the lines, at or after the header |
| Mixins.AddFunctionCaptures | src/Stylus/Stylus.php:319-332 | the body is the trimmed indented lines after the header, one per line, and the cursor ends on the last body line, before the next unindented line |
| Mixins.BindParams | src/Stylus/Stylus.php:219-225 | binding succeeds exactly when there are no more actual arguments than formal parameters (an extra one reads an undefined index) |
| Mixins.DelegationTarget | src/Stylus/Stylus.php:210-217 | a body line delegates exactly when the delegation pattern matches it and the captured name is a defined mixin other than the one being called, and the target is that split |
| Mixins.LineOutcome | src/Stylus/Stylus.php:207-233 | a body line that delegates names a defined mixin other than the current one |
| Mixins.ParseLine | src/Stylus/Stylus.php:244-257 | a line whose name is not a mixin becomes `name: value;` with variables substituted; a line whose name is a mixin becomes that mixin's call with the parentheses removed from the arguments and no parent arguments; a line the pattern does not match reads as an empty name and an empty value |
| MixinProps.CallFromPrefixed | src/Stylus/Stylus.php:207-235 | from any body line on, when no line delegates or fails, the loop appends each remaining piece after a line break and a tab |
| MixinProps.CallJoinsPieces | src/Stylus/Stylus.php:203-236 | when no body line delegates or fails, a call's output is the pieces of its body lines joined by a line break and a tab |
| MixinProps.CallDelegates | src/Stylus/Stylus.php:210-217 | when a body line names another defined mixin, the call's result is that mixin's call with the line's arguments, and the current arguments become the parent arguments |
| MixinProps.NoSelfDelegation | src/Stylus/Stylus.php:214 | a body line that names the mixin being called is never delegated |
| MixinProps.DeclarationSplitCanonical | src/Stylus/Stylus.php:246 | the declaration pattern splits `name: value;` into that name and that value |
| MixinProps.ParseLineCanonical | src/Stylus/Stylus.php:244-257 | a property `name: value;` whose name is no mixin is written back with its value's variables substituted |
| MixinProps.DelegationSplitCanonical | src/Stylus/Stylus.php:210 | the delegation pattern splits `name(args)` into that name and those arguments |
| MixinProps.ReplaceParamAbsent | src/Stylus/Stylus.php:223 | a parameter that does not occur in a line leaves the line unchanged |
| MixinProps.ReplaceParamWhole | src/Stylus/Stylus.php:223 | a parameter on its own, as a word or in braces, becomes the actual argument |
| MixinProps.ArgumentsReplaced | src/Stylus/Stylus.php:227-233 | in a body line of a mixin without parameters, every occurrence of `arguments` becomes the parent arguments when they are truthy and the call's own arguments otherwise, and the result is then reformatted |
| MixinProps.OneParameterLine | src/Stylus/Stylus.php:219-233 | for a mixin with one parameter, a body line `name param` becomes `name: value;`, where the value is the one actual argument with its enclosing quotes stripped |
| Blocks.StripOpenBrace | src/Stylus/Stylus.php:272 | removing the trailing opening brace only cuts the header line short, at the end |
| Blocks.HeaderNames | src/Stylus/Stylus.php:272 | the names a header line declares are non-empty and hold no comma |
| Blocks.HeaderEnd | src/Stylus/Stylus.php:271-274 | the header is the maximal run of lines at the block's indent: every line before its end has that indent, and the line at its end does not |
| Blocks.NamesOf | src/Stylus/Stylus.php:271-274 | every name the header lines collect is non-empty |
| Blocks.HeaderFrom | src/Stylus/Stylus.php:271-274 | reading the header never moves the cursor back, and leaves it within the lines |
| Blocks.Row | src/Stylus/Stylus.php:279-290 | for one header name, there is one nested name per parent, and entry j combines parent j with that name |
| Blocks.AddBlock | src/Stylus/Stylus.php:265-311 | the new block takes the next slot, ahead of every block nested in it, and earlier blocks are unchanged; its names are the header names combined with the parents, its contents are the declarations the body loop collects at the indent of the line after the header, and the cursor ends one line before the line that stopped the body |
| Blocks.Body | src/Stylus/Stylus.php:294-307 | the body loop only moves forward, keeps the declarations collected so far, only adds blocks after the existing ones, and stops only at the end of the input, at a line of another indent, or at a line that is neither a block declaration nor a property |
| Blocks.AddBlockParts | src/Stylus/Stylus.php:265-311 | once the header and the body are known, the block built has the combined header names and the body's declarations, replaces the placeholder, and leaves the cursor one line before where the body stopped |
| BodyProps.BodyCollectsProperties | src/Stylus/Stylus.php:296-307 | over a run of property lines at the body indent, ending at a line that stops the loop, the body appends the declarations of those lines in order and adds no block |
| BlockProps.ComposeNamesLength | src/Stylus/Stylus.php:276-292 | nesting gives one name for every pair of a header name and a parent name |
| BlockProps.ComposeNamesOrder | src/Stylus/Stylus.php:279-290 | the nested names come name-major: with p parents, the entry at `Offset(i, p) + j` combines parent j with header name i |
| BlockProps.OffsetIsProduct | src/Stylus/Stylus.php:279-290 | the start of the run for header name i, `Offset(i, p)`, is i times the number of parents p |
| BlockProps.SingleParent | src/Stylus/Stylus.php:279-290 | under one parent, each header name is combined with it, in order |
| BlockProps.StripOpenBraceRemoves | src/Stylus/Stylus.php:272 | a trailing ` {` after a selector is removed |
| BlockProps.StripOpenBraceKeeps | src/Stylus/Stylus.php:272 | a header line without a brace is unchanged |
| BlockProps.HeaderNamesSingle | src/Stylus/Stylus.php:272 | a single selector declares exactly itself, with or without ` {` after it |
| BlockProps.HeaderNamesList | src/Stylus/Stylus.php:271-272 | a selector list written with `, ` between the selectors, with or without ` {` after it, declares exactly those selectors, in order |
| BlockProps.TrimKeepsBoth | src/Stylus/Stylus.php:272 | a header whose first and last characters are kept by `trim`, with or without ` {` after it, is its own trim |
| Emit.ConvertBlocksToCss | src/Stylus/Stylus.php:379-400 | the loops write the rule of every block with declarations, in block order |
| Emit.WriteNames | src/Stylus/Stylus.php:386-389 | the selector names are written separated by `, ` |
| Emit.WriteDeclarations | src/Stylus/Stylus.php:393-396 | each declaration is written after a tab, with a line break between declarations |
| Emit.CssAppend | src/Stylus/Stylus.php:381-399 | the CSS of two runs of blocks is the two CSS texts one after the other |
| Emit.CssEmptyIff | src/Stylus/Stylus.php:379-400 | the CSS is empty exactly when no block has a declaration |
| Emit.CssEndsWithBrace | src/Stylus/Stylus.php:399 | non-empty CSS ends with `}` and a line break, so it is never PHP's falsy "0" |
| Emit.EmptyBlocksIgnored | src/Stylus/Stylus.php:382-384 | a block without declarations, such as a placeholder, adds nothing to the CSS |
| Engine.Assign | src/Stylus/Stylus.php:83-86 | the name is bound to the value, and every other binding and the rest of the state are unchanged |
| Engine.AddVariable | src/Stylus/Stylus.php:340-346 | a variable line succeeds exactly when the variable pattern captures a name and `parseLine` succeeds; it then binds that name to the parsed line with its assignment stripped, which holds no `;`, and leaves every other binding, the mixins and the blocks unchanged |
| Engine.Clean | src/Stylus/Stylus.php:414 | the cleaned lines are input lines, and none of them is empty or a lone closing brace |
| Engine.Preprocess | src/Stylus/Stylus.php:414 | the lines `render` reads are non-empty, hold no line break, and none is a lone closing brace |
| Engine.ImportSearch | src/Stylus/Stylus.php:356 | the import pattern is found at its leftmost match |
| Engine.SplitExtension | src/Stylus/Stylus.php:358-361 | a name with a dot after its first character splits at its last dot into a non-empty name and an extension that starts with that dot; any other name gets `.styl` |
| Engine.ImportPath | src/Stylus/Stylus.php:356-364 | the path read is the import directory, a slash and the imported name, with `.styl` appended exactly when the name has no dot after its first character |
| Engine.Import | src/Stylus/Stylus.php:354-371 | an import succeeds exactly when the file exists and its contents are truthy; the directive is removed and the file's cleaned lines go in front of all the other lines |
| Engine.RenderFrom | src/Stylus/Stylus.php:416-428 | the line loop keeps the directories and the output buffer, and only adds blocks after the existing ones |
| Engine.Reset | src/Stylus/Stylus.php:434-437 | after rendering, the mixins, blocks, variables and output buffer are cleared, and the directories are kept |
| Engine.Render | src/Stylus/Stylus.php:408-440 | without a read directory `render` fails before reading anything; a finished render leaves the cleared state, and any output it returns is truthy |
| RenderProps.CleanKeeps | src/Stylus/Stylus.php:414 | lines that are neither empty nor a lone closing brace pass through cleaning unchanged |
| RenderProps.CleanIdempotent | src/Stylus/Stylus.php:414 | cleaning twice is cleaning once |
| RenderProps.CleanDrops | src/Stylus/Stylus.php:414 | an empty line or a lone closing brace is dropped |
| RenderProps.CleanAppend | src/Stylus/Stylus.php:414 | cleaning works line by line: the cleaned lines of two parts are the two cleaned parts one after the other, so every kept line keeps its order |
| RenderProps.AssignOverwrites | src/Stylus/Stylus.php:83-86 | a later assignment to the same name wins |
| RenderProps.AssignCommutes | src/Stylus/Stylus.php:83-86 | assignments to different names commute |
| RenderProps.VariableLineBinds | src/Stylus/Stylus.php:340-346 | a variable line `name = value`, whose name is no mixin and whose value holds no `;` and no bound variable, binds the name to exactly that value |
| RenderProps.VariableNameOf | src/Stylus/Stylus.php:342-343 | the variable pattern captures the name of `name = value` |
| RenderProps.AssignmentSplit | src/Stylus/Stylus.php:246 | the declaration pattern splits `name = value` into the name and `= value` |
| RenderProps.StripAssignmentOf | src/Stylus/Stylus.php:344 | stripping the assignment from `name: = value;` leaves the value |
| RenderProps.ImportNameOfDirective | src/Stylus/Stylus.php:356 | `@import` followed by a quoted name imports that name, whatever follows the closing quote |
| RenderProps.SplitExtensionJoin | src/Stylus/Stylus.php:358-361 | a name and an extension come apart where they were joined |
| RenderProps.DefaultExtension | src/Stylus/Stylus.php:354-361 | a name without a dot after its first character gets the `.styl` extension |
| RenderProps.RenderOutput | src/Stylus/Stylus.php:430-439 | on a fresh engine the output is the CSS of the blocks read, and there is no output exactly when no block has a declaration |
| RenderProps.ImportResumes | src/Stylus/Stylus.php:416-428 | an import line that is no block declaration fails without import fuel, fails when the file cannot be opened or read, and otherwise the loop goes on at the same index over the lines `import` returns |
| RenderProps.ImportSkipsImported | src/Stylus/Stylus.php:368-370 | with `@import 'f'` on the second line and a file `d/f.styl` holding `x`, the loop goes on at index 1 over `x` and `a`: the imported line is never classified and `a` is read a second time |
| RenderProps.ExampleImport | src/Stylus/Stylus.php:354-371 | importing `d/f.styl`, which holds `x`, at the second line of `a` and `@import 'f'` gives the lines `x` and `a` |
| RenderProps.ImportLineFacts | src/Stylus/Stylus.php:356-364 | the line `@import 'f'` imports `f`, which gets the `.styl` extension, and as a last line it is no block declaration |
| RenderProps.IndentedCommaClassified | src/Stylus/Stylus.php:116-121 | the line `  ,` is a block declaration at the top level, but at its own indent it is neither a block declaration nor a property |
| RenderProps.IndentedCommaMakesNoProgress | src/Stylus/Stylus.php:416-428 | `addBlock` leaves the cursor before the line `  ,`, so the loop cannot get past it |
| RenderProps.ExampleLines | src/Stylus/Stylus.php:414 | the input `a`, a line break and ` b c` is read as the two lines `a` and ` b c` |
| RenderProps.ExampleSplitLine | src/Stylus/Stylus.php:246 | the declaration pattern splits ` b c` into the name `b` and the value `c` |
| RenderProps.PlainDeclaration | src/Stylus/Stylus.php:244-257 | a line the declaration pattern splits into a name that is no mixin and a value without bound variables becomes `name: value;` |
| RenderProps.ExampleDeclaration | src/Stylus/Stylus.php:244-257 | the body line ` b c` becomes the declaration `b: c;` |
| RenderProps.LastProperty | src/Stylus/Stylus.php:294-307 | a body made of one property line at the body's indent holds exactly that line's declaration and ends after the line |
| RenderProps.ExampleBody | src/Stylus/Stylus.php:294-307 | the body of block `a` is the one declaration `b: c;` and ends after ` b c` |
| RenderProps.OneLineHeader | src/Stylus/Stylus.php:271-274 | a top-level first line followed by an indented line is a header of that one line, declaring that line's names |
| RenderProps.OneBlock | src/Stylus/Stylus.php:265-311 | a top-level block whose header is the first line and whose body ends after the second line becomes the next block, with the header names and the body's declarations, and the cursor stays on the first line |
| RenderProps.ExampleBlock | src/Stylus/Stylus.php:265-311 | the lines `a` and ` b c` make one block named `a` with the one declaration `b: c;` |
| RenderProps.ExampleCss | src/Stylus/Stylus.php:379-400 | that block is written `a {`, a tab, `b: c;` and `}`, one per line |
| RenderProps.ExampleRenderFrom | src/Stylus/Stylus.php:416-428 | the line loop over `a` and ` b c` builds exactly the block `a` and then stops |
| RenderProps.ExampleRender | src/Stylus/Stylus.php:408-440 | rendering `a` followed by ` b c` gives exactly that rule |
| Text.SplitLinesJoin | src/Stylus/Stylus.php:414 | splitting at line breaks and joining with a line feed gives back a text that has no carriage return |
| Text.SplitCommaOptSpace | src/Stylus/Stylus.php:272 | splitting at a comma and one optional whitespace, dropping empty pieces, gives non-empty pieces without commas |
| Text.TrimStart | src/Stylus/Stylus.php:327 | the kept text starts after the leading run of characters that `trim` strips, at a character it keeps |
| Text.Trim | src/Stylus/Stylus.php:327 | the trimmed line is the slice of the line between its leading and its trailing run of characters that `trim` strips, and neither of its ends is such a character |
| Text.JoinEnds | src/Stylus/Stylus.php:386-389 | a list of non-empty items joined by `, ` starts with the first item's first character, ends with the last item's last character, and holds no other character than the items and the separator hold |
| Text.SplitCommaOptSpaceJoin | src/Stylus/Stylus.php:272 | splitting a list of non-empty, comma-free items joined by `, ` at the commas gives the items back |
| Text.SplitCommaOptSpaceSingle | src/Stylus/Stylus.php:272 | a single non-empty selector without a comma splits into itself |
| Text.SplitCommaOptSpaceStep | src/Stylus/Stylus.php:272 | a first selector followed by `, ` splits off as the first piece, and the rest is split on its own |
| Text.SplitCommaSpacesJoin | src/Stylus/Stylus.php:220 | splitting a list of comma-free items that do not start with whitespace, joined by `, `, at the commas and their surrounding whitespace gives the items back |
| Text.ReplaceAllJoin | src/Stylus/Stylus.php:230-232 | replacing a word whose first character occurs only once in it, in parts joined by that word, gives the parts joined by the replacement when no part contains the word |

## Left out

- The directory setters (`setReadDir`, `setWriteDir`, `setImportDir`), `parseFile`, `parseFileToString` and `parseFiles` are left out. They are file-system I/O around `render`; the directories are plain fields of the state.
- File contents are an input: `files` maps a path to what `fopen` and `fread` would return. A missing path is the failed open, and falsy contents are the failed read.
- `PHP_EOL` is taken to be a line feed.
- `StylusException::report` is treated as fatal: the model returns `Fail` with no state. Exception.php is not part of this model.
- Mixins.Call: a delegation chain is bounded by the fuel `calls`, and running out fails with `FuelExhausted`. In PHP the chain can recurse until memory runs out (`a` calls `b` and `b` calls `a`).
- Engine.RenderFrom: the number of `@import` lines processed is bounded by the fuel `imports`. A file whose only line imports itself makes PHP loop forever, with a line buffer that does not grow.
- Two undefined reads are read as `""`, as PHP reads a null string: the name and the value of a line that the declaration pattern of `parseLine` does not match, and the indent of the line after a block header when there is no such line.
- Other reads of undefined array indices fail with `UndefinedIndex` instead of PHP's warning followed by a null value. This covers a mixin called with more arguments than it has parameters, a mixin body line without whitespace after its first word, a mixin header without `)`, and a variable line that the variable pattern does not match.
- Backreferences such as `$1` or `\1`, and backslash escapes, inside a variable's value, an actual argument, the parent arguments or a parent selector name are taken literally, although `preg_replace` would expand them. This covers the `&` replacement by the parent name (Stylus.php:284): PHP reads the `\31` of a parent such as `.\31 0` as a reference to a group, while `Blocks.Compose` keeps the name as it is.
- Regular-expression metacharacters inside a mixin parameter name are taken literally.
- Patterns.Reformat, Patterns.StripQuotes: `$` is read as the end of the subject only. The patterns at Stylus.php:222 and Stylus.php:230-232 have no `D` modifier, so PCRE's `$` also matches just before a final line feed. Input lines never hold a line feed, because they are split at line breaks (Stylus.php:414); only a value passed to `assign` that ends in a line feed, and then substituted into a mixin body line, can reach these patterns with one. On such input PHP and the model differ: with `v` bound to `b;` and a line feed, the body line `a v` becomes `a: b;` and a line feed in PHP, but stays `a b;` and a line feed in the model; the argument `'x'` followed by a line feed is stripped to `x` and a line feed in PHP, but kept as it is in the model.
- Characters are single bytes, and `\s`, `\S` and `\b` use PCRE's ASCII classes, as PHP does for byte strings without the `u` flag. Multi-byte UTF-8 text is not decoded into characters.
- The comparison `$prop != $name` is modelled as string inequality. PHP's loose comparison of two numeric strings (`"1" != "01"`) is not modelled.
- A state after a failed render is not modelled. PHP may leave the tables of a half-finished render in place if `report` returns.

=== FILE: block_props.dfy ===
/** Properties of the block header: how header lines are turned into names
    and how nested names are combined with the enclosing block's names. */
module BlockProps {
  import opened Text
  import opened Blocks

  /** Where row `i` of rows of length `p` starts, written as a sum so that
      the layout proofs stay linear. */
  function Offset(i: nat, p: nat): nat {
    if i == 0 then 0 else p + Offset(i - 1, p)
  }

  /** The start is `i * p`. */
  lemma {:induction false} OffsetIsProduct(i: nat, p: nat)
    ensures Offset(i, p) == i * p
  {
    if i > 0 {
      OffsetIsProduct(i - 1, p);
    }
  }

  /** Rows of one length laid end to end. */
  lemma {:induction false} FlattenLength(rows: seq<seq<string>>, p: nat)
    requires forall k :: 0 <= k < |rows| ==> |rows[k]| == p
    ensures |Flatten(rows)| == Offset(|rows|, p)
  {
    if |rows| > 0 {
      FlattenLength(rows[1..], p);
    }
  }

  /** Entry `j` of row `i` sits at `Offset(i, p) + j`. */
  lemma {:induction false} FlattenEntry(rows: seq<seq<string>>, p: nat, i: nat, j: nat)
    requires forall k :: 0 <= k < |rows| ==> |rows[k]| == p
    requires i < |rows| && j < p
    ensures Offset(i, p) + j < |Flatten(rows)|
    ensures Flatten(rows)[Offset(i, p) + j] == rows[i][j]
  {
    var tail := Flatten(rows[1..]);
    assert Flatten(rows) == rows[0] + tail;
    if i == 0 {
      assert Flatten(rows)[j] == rows[0][j];
    } else {
      FlattenEntry(rows[1..], p, i - 1, j);
      var idx := Offset(i - 1, p) + j;
      assert Offset(i, p) + j == |rows[0]| + idx;
      assert Flatten(rows)[|rows[0]| + idx] == tail[idx];
      assert rows[1..][i - 1] == rows[i];
    }
  }

  /** There is one nested name for every pair of a header name and a
      parent. */
  lemma ComposeNamesLength(parents: seq<string>, names: seq<string>)
    ensures |ComposeNames(parents, names)| == |names| * |parents|
  {
    var rows := seq(|names|, i requires 0 <= i < |names| => Row(parents, names[i]));
    FlattenLength(rows, |parents|);
    OffsetIsProduct(|names|, |parents|);
  }

  /** The nested names come name-major: every parent for the first name,
      then every parent for the second, and so on. Entry `j` of the row of
      header name `i` combines parent `j` with that name. */
  lemma ComposeNamesOrder(parents: seq<string>, names: seq<string>, i: nat, j: nat)
    requires i < |names| && j < |parents|
    ensures Offset(i, |parents|) + j < |ComposeNames(parents, names)|
    ensures ComposeNames(parents, names)[Offset(i, |parents|) + j] == Compose(parents[j], names[i])
  {
    var rows := seq(|names|, k requires 0 <= k < |names| => Row(parents, names[k]));
    FlattenEntry(rows, |parents|, i, j);
    assert rows[i][j] == Compose(parents[j], names[i]);
  }

  /** Under a single parent, each name is composed with it, in order. */
  lemma {:induction false} SingleParent(parent: string, names: seq<string>)
    ensures ComposeNames([parent], names) == seq(|names|, i requires 0 <= i < |names| => Compose(parent, names[i]))
  {
    var r := ComposeNames([parent], names);
    ComposeNamesLength([parent], names);
    forall i | 0 <= i < |names|
      ensures r[i] == Compose(parent, names[i])
    {
      ComposeNamesOrder([parent], names, i, 0);
      OffsetIsProduct(i, 1);
    }
  }

  /** A trailing ` {` is removed from a selector that does not end in
      whitespace. */
  lemma StripOpenBraceRemoves(x: string)
    requires x != "" && !IsSpace(x[|x| - 1])
    ensures StripOpenBrace(x + " {") == x
  {
    var t := x + " {";
    assert t[..|t| - 1] == x + " ";
    assert (x + " ")[..|x|] == x;
    assert SpaceSuffix(x + " ") == 1;
    assert t[..|x|] == x;
  }

  /** A line without a brace is left as it is. */
  lemma StripOpenBraceKeeps(t: string)
    requires '{' !in t
    ensures StripOpenBrace(t) == t
  {
  }

  /** A plain selector, with or without an opening brace after it, declares
      exactly itself. */
  lemma HeaderNamesSingle(x: string)
    requires x != "" && ',' !in x && '{' !in x
    requires !IsTrimChar(x[0]) && !IsSpace(x[|x| - 1]) && x[|x| - 1] != '\0'
    ensures HeaderNames(x) == [x]
    ensures HeaderNames(x + " {") == [x]
  {
    assert Trim(x) == x;
    StripOpenBraceKeeps(x);
    FirstOfUnique(x, {','}, |x|);
    var t := x + " {";
    assert t[0] == x[0] && t[|t| - 1] == '{';
    assert Trim(t) == t;
    StripOpenBraceRemoves(x);
  }

  /** A selector list written with `, ` between the selectors, with or
      without an opening brace after it, declares exactly those selectors,
      in order. */
  lemma HeaderNamesList(xs: seq<string>)
    requires |xs| > 0 && forall k :: 0 <= k < |xs| ==> xs[k] != "" && ',' !in xs[k] && '{' !in xs[k]
    requires !IsTrimChar(xs[0][0])
    requires var last := xs[|xs| - 1]; !IsSpace(last[|last| - 1]) && last[|last| - 1] != '\0'
    ensures HeaderNames(Join(", ", xs)) == xs
    ensures HeaderNames(Join(", ", xs) + " {") == xs
  {
    var x := Join(", ", xs);
    JoinEnds(xs, '{');
    TrimKeepsBoth(x);
    StripOpenBraceKeeps(x);
    StripOpenBraceRemoves(x);
    SplitCommaOptSpaceJoin(xs);
  }

  /** Text whose first and last characters are not stripped by `trim`, with
      or without ` {` after it, is its own trim. */
  lemma TrimKeepsBoth(x: string)
    requires x != "" && !IsTrimChar(x[0]) && !IsSpace(x[|x| - 1]) && x[|x| - 1] != '\0'
    ensures Trim(x) == x && Trim(x + " {") == x + " {"
  {
    var t := x + " {";
    assert t[0] == x[0] && t[|t| - 1] == '{';
  }
}

=== FILE: blocks.dfy ===
/** Blocks of rules, `addBlock`: a run of selector lines at one indent, the
    names they declare (combined with the enclosing block's names), and the
    body of properties and nested blocks at the next indent.

    The PHP keeps the blocks in an array indexed by position; a block
    reserves its slot before its body is read, so it precedes every block
    nested in it. Here the array is a sequence and the reservation is the
    empty block `Placeholder`. */
module Blocks {
  import opened Results
  import opened Text
  import opened Indent
  import opened Classify
  import opened Mixins

  /** A block: its selectors and its formatted declarations. */
  datatype Block = Block(names: seq<string>, contents: seq<string>)

  /** The slot a block holds while its body is being read; like the PHP
      string `'placeholder'` it has no contents, so it produces no CSS. */
  const Placeholder: Block := Block([], [])

  /** Length of the run of `\s` characters at the end of `s`. */
  function SpaceSuffix(s: string): (n: nat)
    ensures n <= |s|
    ensures forall k :: |s| - n <= k < |s| ==> IsSpace(s[k])
    ensures n < |s| ==> !IsSpace(s[|s| - n - 1])
  {
    if |s| == 0 || !IsSpace(s[|s| - 1]) then 0 else 1 + SpaceSuffix(s[..|s| - 1])
  }

  /** `preg_replace('~\s*{\s*$~', '', $t)`: an opening brace that is the
      last non-space character goes, with the whitespace around it. */
  function StripOpenBrace(t: string): (r: string)
    ensures StartsWith(t, r)
  {
    var e := |t| - SpaceSuffix(t);
    if e > 0 && t[e - 1] == '{' then t[..e - 1 - SpaceSuffix(t[..e - 1])] else t
  }

  /** The names a header line declares: trimmed, without a trailing `{`, and
      split at commas (each optionally followed by one whitespace). */
  function HeaderNames(line: string): (names: seq<string>)
    ensures forall k :: 0 <= k < |names| ==> names[k] != "" && ',' !in names[k]
  {
    SplitCommaOptSpace(StripOpenBrace(Trim(line)))
  }

  /** The header lines of a block and the index of the first line after
      them. */
  datatype HeaderRun = HeaderRun(names: seq<string>, next: nat)

  /** The first loop of `addBlock`: lines from `i` while their indent is
      `indent`, their names concatenated in order. */
  function HeaderFrom(lines: seq<string>, i: nat, indent: string): (h: HeaderRun)
    requires i <= |lines|
    ensures i <= h.next <= |lines|
  {
    var e := HeaderEnd(lines, i, indent);
    HeaderRun(NamesOf(lines, i, e), e)
  }

  /** Where the run of header lines from `i` at `indent` ends: the first
      line at another indent, or the end of the input. */
  function HeaderEnd(lines: seq<string>, i: nat, indent: string): (e: nat)
    requires i <= |lines|
    ensures i <= e <= |lines|
    ensures forall k :: i <= k < e ==> GetIndent(lines[k]) == indent
    ensures e < |lines| ==> GetIndent(lines[e]) != indent
    decreases |lines| - i
  {
    if i == |lines| || GetIndent(lines[i]) != indent then i else HeaderEnd(lines, i + 1, indent)
  }

  /** The names declared by lines `i` to `e - 1`, in order. */
  function NamesOf(lines: seq<string>, i: nat, e: nat): (names: seq<string>)
    requires i <= e <= |lines|
    ensures forall k :: 0 <= k < |names| ==> names[k] != ""
    decreases e - i
  {
    if i == e then [] else HeaderNames(lines[i]) + NamesOf(lines, i + 1, e)
  }

  /** A nested selector under one parent selector: glued on for `.x`,
      `#x` and `:x`, substituted for every `&`, and otherwise a descendant
      selector. */
  function Compose(parent: string, child: string): string {
    if |child| > 0 && child[0] in {'.', '#', ':'} then parent + child
    else if '&' in child then ReplaceAll(child, "&", parent)
    else parent + " " + child
  }

  /** The nested `foreach` of `addBlock`: for each name, for each parent. */
  function ComposeNames(parents: seq<string>, names: seq<string>): seq<string> {
    Flatten(seq(|names|, i requires 0 <= i < |names| => Row(parents, names[i])))
  }

  /** The inner `foreach`: one name under every parent. */
  function Row(parents: seq<string>, name: string): (r: seq<string>)
    ensures |r| == |parents|
    ensures forall j :: 0 <= j < |parents| ==> r[j] == Compose(parents[j], name)
  {
    seq(|parents|, j requires 0 <= j < |parents| => Compose(parents[j], name))
  }

  /** The rows one after the other. */
  function Flatten(rows: seq<seq<string>>): seq<string> {
    if |rows| == 0 then [] else rows[0] + Flatten(rows[1..])
  }

  /** The names of a block with header names `names`: composed with the
      parents' names when there are parents (a non-empty PHP array). */
  function BlockNames(parents: seq<string>, names: seq<string>): seq<string> {
    if parents == [] then names else ComposeNames(parents, names)
  }

  /** The indent of the body: that of the first line after the header, or
      "" when there is none (PHP reads the missing line as null). */
  function BodyIndent(lines: seq<string>, j: nat): string {
    if j < |lines| then GetIndent(lines[j]) else ""
  }

  /** The body loop stops at line `j`: the input ends, the line is at
      another indent, or it is neither a block declaration nor a property. */
  predicate BodyStops(lines: seq<string>, j: nat, indent: string)
    requires j <= |lines|
  {
    j == |lines| || GetIndent(lines[j]) != indent
    || (!IsBlockDeclaration(lines, j, indent) && !IsProperty(lines[j]))
  }

  /** What `addBlock` leaves behind: the block array and the cursor, one
      line before the first line it did not consume. */
  datatype Built = Built(blocks: seq<Block>, cursor: int)

  /** What the body loop leaves behind. */
  datatype BodyRun = BodyRun(blocks: seq<Block>, contents: seq<string>, next: nat)

  /** `addBlock($lines, $i, $indent, $parent_names)`. A run of header lines
      that reaches the end of the input leaves PHP reading a missing line
      for the body indent; it reads as "", which ends the body at once. */
  function AddBlock(t: Tables, lines: seq<string>, i: nat, indent: string, parents: seq<string>,
                    blocks: seq<Block>, fuel: nat): (r: Result<Built>)
    requires i < |lines|
    ensures r.Ok? ==> i - 1 <= r.value.cursor < |lines|
    ensures r.Ok? && GetIndent(lines[i]) == indent ==> i <= r.value.cursor
    ensures r.Ok? ==> |r.value.blocks| > |blocks| && r.value.blocks[..|blocks|] == blocks
    ensures r.Ok? ==> r.value.blocks[|blocks|].names == BlockNames(parents, HeaderFrom(lines, i, indent).names)
    ensures r.Ok? ==> var h := HeaderFrom(lines, i, indent);
              var b := Body(t, lines, h.next, BodyIndent(lines, h.next), BlockNames(parents, h.names),
                            blocks + [Placeholder], [], fuel);
              && b.Ok? && r.value.blocks[|blocks|].contents == b.value.contents
              && r.value.cursor == b.value.next - 1
    decreases 2 * (|lines| - i) + (if GetIndent(lines[i]) == indent then 0 else 1), 0
  {
    var h := HeaderFrom(lines, i, indent);
    var names := BlockNames(parents, h.names);
    var b :- Body(t, lines, h.next, BodyIndent(lines, h.next), names, blocks + [Placeholder], [], fuel);
    var result := b.blocks[|blocks| := Block(names, b.contents)];
    assert result[..|blocks|] == b.blocks[..|blocks|] == (blocks + [Placeholder])[..|blocks|];
    Ok(Built(result, b.next - 1))
  }

  /** The second loop of `addBlock`, from line `j`: nested blocks and
      properties at `indent`, until a line at another indent or a line that
      is neither. */
  function Body(t: Tables, lines: seq<string>, j: nat, indent: string, names: seq<string>,
                blocks: seq<Block>, contents: seq<string>, fuel: nat): (r: Result<BodyRun>)
    requires j <= |lines|
    ensures r.Ok? ==> j <= r.value.next <= |lines|
    ensures r.Ok? ==> |r.value.blocks| >= |blocks| && r.value.blocks[..|blocks|] == blocks
    ensures r.Ok? ==> |r.value.contents| >= |contents| && r.value.contents[..|contents|] == contents
    ensures r.Ok? ==> BodyStops(lines, r.value.next, indent)
    decreases 2 * (|lines| - j), 2
  {
    if BodyStops(lines, j, indent) then Ok(BodyRun(blocks, contents, j))
    else if IsBlockDeclaration(lines, j, indent) then NestedBlock(t, lines, j, indent, names, blocks, contents, fuel)
    else PropertyLine(t, lines, j, indent, names, blocks, contents, fuel)
  }

  /** A nested block inside the body, then the rest of the body. */
  function NestedBlock(t: Tables, lines: seq<string>, j: nat, indent: string, names: seq<string>,
                       blocks: seq<Block>, contents: seq<string>, fuel: nat): (r: Result<BodyRun>)
    requires j < |lines| && GetIndent(lines[j]) == indent
    ensures r.Ok? ==> j <= r.value.next <= |lines|
    ensures r.Ok? ==> |r.value.blocks| >= |blocks| && r.value.blocks[..|blocks|] == blocks
    ensures r.Ok? ==> |r.value.contents| >= |contents| && r.value.contents[..|contents|] == contents
    ensures r.Ok? ==> BodyStops(lines, r.value.next, indent)
    decreases 2 * (|lines| - j), 1
  {
    var c :- AddBlock(t, lines, j, indent, names, blocks, fuel);
    Body(t, lines, c.cursor + 1, indent, names, c.blocks, contents, fuel)
  }

  /** A property inside the body, then the rest of the body. */
  function PropertyLine(t: Tables, lines: seq<string>, j: nat, indent: string, names: seq<string>,
                        blocks: seq<Block>, contents: seq<string>, fuel: nat): (r: Result<BodyRun>)
    requires j < |lines|
    ensures r.Ok? ==> j <= r.value.next <= |lines|
    ensures r.Ok? ==> |r.value.blocks| >= |blocks| && r.value.blocks[..|blocks|] == blocks
    ensures r.Ok? ==> |r.value.contents| >= |contents| && r.value.contents[..|contents|] == contents
    ensures r.Ok? ==> BodyStops(lines, r.value.next, indent)
    decreases 2 * (|lines| - j), 1
  {
    var p :- ParseLine(t, lines[j], fuel);
    var r := Body(t, lines, j + 1, indent, names, blocks, contents + [p], fuel);
    assert r.Ok? ==> r.value.contents[..|contents|] == r.value.contents[..|contents| + 1][..|contents|];
    r
  }

  /** One step of the body loop at a line that stops it. */
  lemma BodyStop(t: Tables, lines: seq<string>, j: nat, indent: string, names: seq<string>,
                 blocks: seq<Block>, contents: seq<string>, fuel: nat)
    requires j <= |lines| && BodyStops(lines, j, indent)
    ensures Body(t, lines, j, indent, names, blocks, contents, fuel) == Ok(BodyRun(blocks, contents, j))
  {
  }

  /** One step of the body loop at a property. */
  lemma BodyProperty(t: Tables, lines: seq<string>, j: nat, indent: string, names: seq<string>,
                     blocks: seq<Block>, contents: seq<string>, fuel: nat)
    requires j <= |lines| && !BodyStops(lines, j, indent) && !IsBlockDeclaration(lines, j, indent)
    ensures var p := ParseLine(t, lines[j], fuel);
            p.Ok? ==> Body(t, lines, j, indent, names, blocks, contents, fuel)
                      == Body(t, lines, j + 1, indent, names, blocks, contents + [p.value], fuel)
    ensures ParseLine(t, lines[j], fuel).Fail? ==> Body(t, lines, j, indent, names, blocks, contents, fuel).Fail?
  {
    assert Body(t, lines, j, indent, names, blocks, contents, fuel)
           == PropertyLine(t, lines, j, indent, names, blocks, contents, fuel);
  }

  /** `addBlock` is its header followed by its body: the slot reserved for
      the block is filled with the header's names and the body's
      declarations, and the cursor is left one line before where the body
      stopped. */
  lemma AddBlockParts(t: Tables, lines: seq<string>, i: nat, indent: string, parents: seq<string>,
                      blocks: seq<Block>, fuel: nat, h: HeaderRun, run: BodyRun)
    requires i < |lines| && HeaderFrom(lines, i, indent) == h && h.next <= |lines|
    requires Body(t, lines, h.next, BodyIndent(lines, h.next), BlockNames(parents, h.names),
                  blocks + [Placeholder], [], fuel) == Ok(run)
    ensures AddBlock(t, lines, i, indent, parents, blocks, fuel)
            == Ok(Built(run.blocks[|blocks| := Block(BlockNames(parents, h.names), run.contents)], run.next - 1))
  {
  }
}

=== FILE: body_props.dfy ===
/** Properties of the block body: where the body loop of `addBlock` stops,
    and what a run of property lines contributes to the block. */
module BodyProps {
  import opened Results
  import opened Indent
  import opened Classify
  import opened Mixins
  import opened Blocks

  /** Line `j + k` is a property at `indent`, and not a block declaration,
      and its declaration is `ps[k]`. */
  predicate PropertyAt(t: Tables, lines: seq<string>, j: nat, k: nat, indent: string, ps: seq<string>, fuel: nat)
    requires j + k < |lines| && k < |ps|
  {
    var line := lines[j + k];
    && GetIndent(line) == indent && !IsBlockDeclaration(lines, j + k, indent)
    && IsProperty(line) && ParseLine(t, line, fuel) == Ok(ps[k])
  }

  /** Lines `j` to `j + |ps| - 1` are properties at `indent` whose
      declarations are `ps`, in order. */
  predicate PropertyRun(t: Tables, lines: seq<string>, j: nat, indent: string, ps: seq<string>, fuel: nat)
  {
    && j + |ps| <= |lines|
    && forall k :: 0 <= k < |ps| ==> PropertyAt(t, lines, j, k, indent, ps, fuel)
  }

  /** Over a run of property lines at the body indent, up to a line that
      stops the loop, the body collects their declarations in order and
      adds no block. */
  lemma BodyCollectsProperties(t: Tables, lines: seq<string>, j: nat, indent: string,
                               names: seq<string>, blocks: seq<Block>,
                               contents: seq<string>, ps: seq<string>, fuel: nat)
    requires PropertyRun(t, lines, j, indent, ps, fuel) && BodyStops(lines, j + |ps|, indent)
    ensures BodyFrom(t, lines, j, indent, names, blocks, contents, fuel) == Ok(BodyRun(blocks, contents + ps, j + |ps|))
  {
    var run := BodyRun(blocks, contents + ps, j + |ps|);
    CollectSteps(t, lines, j, indent, names, blocks, contents, ps, fuel);
    RunEnd(t, lines, j, indent, names, blocks, contents, ps, fuel);
    RunStart(t, lines, j, indent, names, blocks, contents, ps, fuel, run);
  }

  /** `Body` from line `j` with `contents` collected. */
  function BodyFrom(t: Tables, lines: seq<string>, j: nat, indent: string, names: seq<string>,
                    blocks: seq<Block>, contents: seq<string>, fuel: nat): Result<BodyRun>
    requires j <= |lines|
  {
    Body(t, lines, j, indent, names, blocks, contents, fuel)
  }

  /** What the body yields from each line of the run, with the
      declarations of the lines before it collected. */
  function Reached(t: Tables, lines: seq<string>, j: nat, indent: string,
                   names: seq<string>, blocks: seq<Block>,
                   contents: seq<string>, ps: seq<string>, fuel: nat): (rs: seq<Result<BodyRun>>)
    requires j + |ps| <= |lines|
    ensures |rs| == |ps| + 1
  {
    seq(|ps| + 1, i requires 0 <= i <= |ps| =>
          Body(t, lines, j + i, indent, names, blocks, contents + ps[..i], fuel))
  }

  /** Over the run, the body yields the same from every line. */
  lemma CollectSteps(t: Tables, lines: seq<string>, j: nat, indent: string,
                     names: seq<string>, blocks: seq<Block>,
                     contents: seq<string>, ps: seq<string>, fuel: nat)
    requires PropertyRun(t, lines, j, indent, ps, fuel)
    ensures var rs := Reached(t, lines, j, indent, names, blocks, contents, ps, fuel); rs[0] == rs[|ps|]
  {
    var rs := Reached(t, lines, j, indent, names, blocks, contents, ps, fuel);
    forall i | 0 <= i < |ps|
      ensures rs[i] == rs[i + 1]
    {
      StepAt(t, lines, j, i, indent, names, blocks, contents, ps, fuel, rs);
    }
    AllEqual(rs);
  }

  /** The first and the last of a sequence whose neighbours are equal are
      equal. */
  lemma {:induction false} AllEqual(rs: seq<Result<BodyRun>>)
    requires |rs| > 0
    requires forall i :: 0 <= i < |rs| - 1 ==> rs[i] == rs[i + 1]
    ensures rs[0] == rs[|rs| - 1]
  {
    if |rs| > 1 {
      AllEqual(rs[1..]);
    }
  }

  /** A property line of the run, reached with the declarations before it
      collected, adds its own declaration. */
  lemma StepAt(t: Tables, lines: seq<string>, j: nat, i: nat, indent: string,
               names: seq<string>, blocks: seq<Block>, contents: seq<string>, ps: seq<string>,
               fuel: nat, rs: seq<Result<BodyRun>>)
    requires PropertyRun(t, lines, j, indent, ps, fuel) && i < |ps|
    requires rs == Reached(t, lines, j, indent, names, blocks, contents, ps, fuel)
    ensures rs[i] == rs[i + 1]
  {
    PropertyStep(t, lines, j, i, indent, names, blocks, contents + ps[..i], ps, fuel);
    TakeNext(contents, ps, i);
  }

  /** A property line of the run is parsed and the body goes on from the
      next line, with one more declaration collected. */
  lemma PropertyStep(t: Tables, lines: seq<string>, j: nat, i: nat, indent: string,
                     names: seq<string>, blocks: seq<Block>, contents: seq<string>, ps: seq<string>,
                     fuel: nat)
    requires PropertyRun(t, lines, j, indent, ps, fuel) && i < |ps|
    ensures BodyFrom(t, lines, j + i, indent, names, blocks, contents, fuel)
            == BodyFrom(t, lines, j + i + 1, indent, names, blocks, contents + [ps[i]], fuel)
  {
    LineAdvance(t, lines, j, i, indent, names, blocks, contents, ps, fuel);
  }

  /** At a property line of the run, the body goes on from the next line
      with that line's declaration collected. */
  lemma LineAdvance(t: Tables, lines: seq<string>, j: nat, i: nat, indent: string,
                    names: seq<string>, blocks: seq<Block>, contents: seq<string>, ps: seq<string>,
                    fuel: nat)
    requires j + i < |lines| && i < |ps| && PropertyAt(t, lines, j, i, indent, ps, fuel)
    ensures BodyFrom(t, lines, j + i, indent, names, blocks, contents, fuel)
            == BodyFrom(t, lines, j + i + 1, indent, names, blocks, contents + [ps[i]], fuel)
  {
    assert !BodyStops(lines, j + i, indent);
    assert Body(t, lines, j + i, indent, names, blocks, contents, fuel)
           == PropertyLine(t, lines, j + i, indent, names, blocks, contents, fuel);
  }

  /** After the last line of the run the body stops, with all of `ps`
      collected. */
  lemma RunEnd(t: Tables, lines: seq<string>, j: nat, indent: string,
               names: seq<string>, blocks: seq<Block>,
               contents: seq<string>, ps: seq<string>, fuel: nat)
    requires j + |ps| <= |lines| && BodyStops(lines, j + |ps|, indent)
    ensures Reached(t, lines, j, indent, names, blocks, contents, ps, fuel)[|ps|]
            == Ok(BodyRun(blocks, contents + ps, j + |ps|))
  {
    CollectedAll(contents, ps);
    BodyStop(t, lines, j + |ps|, indent, names, blocks, contents + ps, fuel);
  }

  /** The body from the first line of the run is the first of `Reached`. */
  lemma RunStart(t: Tables, lines: seq<string>, j: nat, indent: string,
                 names: seq<string>, blocks: seq<Block>,
                 contents: seq<string>, ps: seq<string>, fuel: nat, run: BodyRun)
    requires j + |ps| <= |lines|
    ensures BodyFrom(t, lines, j, indent, names, blocks, contents, fuel) == Ok(run)
            <==> Reached(t, lines, j, indent, names, blocks, contents, ps, fuel)[0] == Ok(run)
  {
    CollectedAll(contents, ps);
  }

  lemma TakeNext(a: seq<string>, s: seq<string>, m: nat)
    requires m < |s|
    ensures a + s[..m] + [s[m]] == a + s[..m + 1]
  {
    assert s[..m + 1] == s[..m] + [s[m]];
  }

  lemma CollectedAll(a: seq<string>, s: seq<string>)
    ensures a + s[..0] == a && a + s[..|s|] == a + s
  {
    assert s[..0] == [] && s[..|s|] == s;
  }
}

=== FILE: classify.dfy ===
/** The line classifier: `isProperty`, `isVariableDeclaration`,
    `isFunctionDeclaration`, `isImport` and `isBlockDeclaration`, each
    written out as a character-level predicate equivalent to its regular
    expression. Lines never contain a line break (they come from
    `Text.SplitLines`), so `$` is simply the end of the line. */
module Classify {
  import opened Text
  import opened Indent

  /** The class `[a-zA-Z0-9.#*]` a plain selector starts with. */
  predicate IsSelectorStart(c: char) {
    IsLetter(c) || IsDigit(c) || c == '.' || c == '#' || c == '*'
  }

  /** The class `[a-zA-Z0-9.#*+&\[\]='">~^$-]` of a selector-list item. */
  predicate IsSelectorChar(c: char) {
    IsSelectorStart(c) || c in "+&[]='\">~^$-"
  }

  /** `~\S\s\S~` matches at index `k`. */
  predicate SpacedAt(line: string, k: nat) {
    k + 2 < |line| && !IsSpace(line[k]) && IsSpace(line[k + 1]) && !IsSpace(line[k + 2])
  }

  /** `isProperty`: a non-space, a space and a non-space in a row somewhere. */
  predicate IsProperty(line: string) {
    exists k :: 0 <= k < |line| && SpacedAt(line, k)
  }

  /** `~^[\$a-zA-Z0-9_-]+\s*=\s*\S~`. */
  predicate VariableShape(line: string) {
    var n := NameRun(line);
    var rest := line[n..];
    var s := SpaceRun(rest);
    && n > 0
    && s < |rest| && rest[s] == '='
    && SpaceRun(rest[s + 1..]) < |rest[s + 1..]|
  }

  /** `isVariableDeclaration`: the shape above, and a next line whose indent
      is the same as this line's. */
  predicate IsVariableDeclaration(lines: seq<string>, i: nat)
    requires i < |lines|
  {
    && VariableShape(lines[i])
    && i + 1 < |lines|
    && GetIndent(lines[i + 1]) == GetIndent(lines[i])
  }

  /** `isFunctionDeclaration`: `~^[\$a-zA-Z0-9_-]+\s*\(~`. */
  predicate IsFunctionDeclaration(line: string) {
    var n := NameRun(line);
    var rest := line[n..];
    var s := SpaceRun(rest);
    n > 0 && s < |rest| && rest[s] == '('
  }

  /** `isImport`: `~^@import~`. */
  predicate IsImport(line: string) {
    StartsWith(line, "@import")
  }

  /** Some `:not` ends at a position in `[5, q]` of `line`. */
  predicate NotEndsBy(line: string, q: nat)
    requires q <= |line|
  {
    q >= 5 && (OccursAt(line, ":not", q - 4) || NotEndsBy(line, q - 1))
  }

  /** `~^[a-zA-Z0-9.#*][^(]+((?<=:not)|$)~`: the run of non-parentheses after
      the first character may end at the end of the line, or at any point
      right after a `:not`. */
  predicate PlainSelector(line: string) {
    && |line| >= 2
    && IsSelectorStart(line[0])
    && var q := 1 + FirstOf(line[1..], {'('});
       q >= 2 && (q == |line| || NotEndsBy(line, q))
  }

  /** `rest` without one trailing comma. */
  function DropComma(rest: string): (body: string)
    ensures body == rest || body + "," == rest
  {
    if |rest| > 0 && rest[|rest| - 1] == ',' then rest[..|rest| - 1] else rest
  }

  predicate AllSelectorChars(s: string) {
    forall k :: 0 <= k < |s| ==> IsSelectorChar(s[k])
  }

  /** `~^INDENT[class]+,?$~`. */
  predicate ListItem(line: string, indent: string) {
    && StartsWith(line, indent)
    && var body := DropComma(line[|indent|..]);
       |body| > 0 && AllSelectorChars(body)
  }

  /** `~^INDENT[class ,]+,$~`: a selector list line ending in a comma. */
  predicate ListLine(line: string, indent: string) {
    && StartsWith(line, indent)
    && var rest := line[|indent|..];
       && |rest| >= 2 && rest[|rest| - 1] == ','
       && forall k :: 0 <= k < |rest| - 1 ==> IsSelectorChar(rest[k]) || rest[k] == ' ' || rest[k] == ','
  }

  /** `getIndent($lines[$i+1]) > getIndent($line)`, with PHP string comparison. */
  predicate NextIsDeeper(lines: seq<string>, i: nat)
    requires i < |lines|
  {
    i + 1 < |lines| && IndentGreater(GetIndent(lines[i + 1]), GetIndent(lines[i]))
  }

  /** `isBlockDeclaration`: any of the six tests of the source. */
  predicate IsBlockDeclaration(lines: seq<string>, i: nat, indent: string)
    requires i < |lines|
  {
    var line := lines[i];
    || PlainSelector(line)
    || ListItem(line, indent)
    || ListLine(line, indent)
    || StartsWith(line, indent + "&")
    || NextIsDeeper(lines, i)
    || '{' in line
  }

  /** A line passing the list-item test or the `&` test at `indent` has
      exactly that indent. (The comma-list test does not have this property:
      a line of spaces followed by text and a comma passes it at "".) */
  lemma IndentedTestsFixIndent(line: string, indent: string)
    requires AllSpace(indent)
    requires ListItem(line, indent) || StartsWith(line, indent + "&")
    ensures GetIndent(line) == indent
  {
    assert line[..|indent|] == indent;
    if StartsWith(line, indent + "&") {
      assert line[|indent|] == (indent + "&")[|indent|];
    } else {
      var rest := line[|indent|..];
      var body := DropComma(rest);
      assert body[0] == rest[0] && IsSelectorChar(body[0]);
    }
    IndentUnique(line, indent);
  }

  /** No line is both a function declaration and a variable declaration:
      after the name and the whitespace comes either `(` or `=`. */
  lemma FunctionNotVariable(lines: seq<string>, i: nat)
    requires i < |lines| && IsFunctionDeclaration(lines[i])
    ensures !IsVariableDeclaration(lines, i)
  {
  }

  /** An `@import` line is neither kind of declaration, since `@` cannot
      start a name. */
  lemma ImportNotDeclaration(lines: seq<string>, i: nat)
    requires i < |lines| && IsImport(lines[i])
    ensures !IsFunctionDeclaration(lines[i]) && !IsVariableDeclaration(lines, i)
  {
    assert lines[i][0] == "@import"[0];
  }

  /** A selector whose first parenthesis comes right after `:not` passes
      the plain-selector test, whatever follows. */
  lemma NotSelectorIsPlain(x: string, rest: string)
    requires |x| >= 1 && IsSelectorStart(x[0]) && '(' !in x
    ensures PlainSelector(x + ":not(" + rest)
  {
    var line := x + ":not(" + rest;
    assert line[1..][..|x| + 3] == x[1..] + ":not";
    FirstOfUnique(line[1..], {'('}, |x| + 3);
    assert OccursAt(line, ":not", |x|);
  }

  /** A selector with a parenthesis that no `:not` precedes fails the
      plain-selector test. */
  lemma ParenthesisIsNotPlain(x: string, rest: string)
    requires |x| >= 1 && '(' !in x && !Occurs(x, ":not")
    ensures !PlainSelector(x + "(" + rest)
  {
    var line := x + "(" + rest;
    if |line| >= 2 && IsSelectorStart(line[0]) {
      assert line[1..][|x| - 1] == '(';
      FirstOfUnique(line[1..], {'('}, |x| - 1);
      NotAbsent(line, x, |x|);
    }
  }

  lemma {:induction false} NotAbsent(line: string, x: string, q: nat)
    requires q <= |x| <= |line| && line[..|x|] == x && !Occurs(x, ":not")
    ensures !NotEndsBy(line, q)
  {
    if q >= 5 {
      assert line[q - 4..q] == x[q - 4..q];
      assert !OccursAt(x, ":not", q - 4);
      NotAbsent(line, x, q - 1);
    }
  }
}

=== FILE: emit.dfy ===
/** CSS output, `convertBlocksToCSS`: every block with at least one
    declaration becomes `names {`, its declarations one per line after a
    tab, and `}`. `PHP_EOL` is taken to be a line feed. */
module Emit {
  import opened Text
  import opened Blocks

  /** The declarations of a block, each after a tab, one per line. */
  function Declarations(contents: seq<string>): string {
    if |contents| == 0 then ""
    else if |contents| == 1 then "\t" + contents[0]
    else "\t" + contents[0] + "\n" + Declarations(contents[1..])
  }

  /** The rule a block with declarations is written as. */
  function Rule(b: Block): string {
    Join(", ", b.names) + " {\n" + Declarations(b.contents) + "\n}\n"
  }

  /** The style sheet of a sequence of blocks: the rules of the blocks with
      declarations, in order. */
  function Css(blocks: seq<Block>): string {
    if |blocks| == 0 then ""
    else (if blocks[0].contents == [] then "" else Rule(blocks[0])) + Css(blocks[1..])
  }

  /** `convertBlocksToCSS`, appending to `file` as the PHP does. */
  method ConvertBlocksToCss(blocks: seq<Block>) returns (file: string)
    ensures file == Css(blocks)
  {
    file := "";
    var n := 0;
    while n < |blocks|
      invariant 0 <= n <= |blocks|
      invariant file == Css(blocks[..n])
    {
      assert blocks[..n + 1] == blocks[..n] + [blocks[n]];
      CssAppend(blocks[..n], [blocks[n]]);
      assert [blocks[n]][1..] == [];
      if blocks[n].contents != [] {
        var names := WriteNames(blocks[n].names);
        var body := WriteDeclarations(blocks[n].contents);
        assert Css([blocks[n]]) == Rule(blocks[n]) + "";
        file := file + (names + " {\n" + body + "\n}\n");
      } else {
        assert Css([blocks[n]]) == "" + "";
      }
      n := n + 1;
    }
    assert blocks[..|blocks|] == blocks;
  }

  /** The names loop: `, ` before every name but the first. */
  method WriteNames(names: seq<string>) returns (out: string)
    ensures out == Join(", ", names)
  {
    out := "";
    var i := 0;
    while i < |names|
      invariant 0 <= i <= |names|
      invariant out == Join(", ", names[..i])
    {
      if i > 0 {
        out := out + ", ";
      }
      JoinSnoc(", ", names[..i], names[i]);
      assert names[..i + 1] == names[..i] + [names[i]];
      out := out + names[i];
      i := i + 1;
    }
    assert names[..|names|] == names;
  }

  /** The contents loop: a line break before every declaration but the
      first, a tab before each. */
  method WriteDeclarations(contents: seq<string>) returns (out: string)
    ensures out == Declarations(contents)
  {
    out := "";
    var j := 0;
    while j < |contents|
      invariant 0 <= j <= |contents|
      invariant out == Declarations(contents[..j])
    {
      if j > 0 {
        out := out + "\n";
      }
      DeclarationsSnoc(contents[..j], contents[j]);
      assert contents[..j + 1] == contents[..j] + [contents[j]];
      out := out + "\t" + contents[j];
      j := j + 1;
    }
    assert contents[..|contents|] == contents;
  }

  /** Appending one part to a join. */
  lemma {:induction false} JoinSnoc(sep: string, parts: seq<string>, p: string)
    ensures Join(sep, parts + [p]) == (if parts == [] then p else Join(sep, parts) + sep + p)
  {
    if |parts| >= 2 {
      JoinSnoc(sep, parts[1..], p);
      assert (parts + [p])[1..] == parts[1..] + [p];
    } else if |parts| == 1 {
      assert (parts + [p])[1..] == [p];
    }
  }

  lemma {:induction false} DeclarationsSnoc(contents: seq<string>, c: string)
    ensures Declarations(contents + [c])
            == (if contents == [] then "\t" + c else Declarations(contents) + "\n" + "\t" + c)
  {
    if |contents| >= 2 {
      DeclarationsSnoc(contents[1..], c);
      assert (contents + [c])[1..] == contents[1..] + [c];
    } else if |contents| == 1 {
      assert (contents + [c])[1..] == [c];
    }
  }

  /** The style sheet of two runs of blocks is the two style sheets one
      after the other. */
  lemma {:induction false} CssAppend(a: seq<Block>, b: seq<Block>)
    ensures Css(a + b) == Css(a) + Css(b)
  {
    if |a| > 0 {
      CssAppend(a[1..], b);
      assert (a + b)[1..] == a[1..] + b;
      var head := if a[0].contents == [] then "" else Rule(a[0]);
      var x, y := Css(a[1..]), Css(b);
      assert head + (x + y) == (head + x) + y;
    } else {
      assert a + b == b;
    }
  }

  /** A rule is never empty: it holds at least ` {`, a line break and `}`. */
  lemma RuleNonEmpty(b: Block)
    ensures |Rule(b)| >= 5 && Rule(b)[|Rule(b)| - 2..] == "}\n"
  {
  }

  /** The style sheet is empty exactly when no block has a declaration. */
  lemma {:induction false} CssEmptyIff(blocks: seq<Block>)
    ensures Css(blocks) == "" <==> forall k :: 0 <= k < |blocks| ==> blocks[k].contents == []
  {
    if |blocks| > 0 {
      CssEmptyIff(blocks[1..]);
      RuleNonEmpty(blocks[0]);
      assert forall k :: 1 <= k < |blocks| ==> blocks[k] == blocks[1..][k - 1];
    }
  }

  /** A non-empty style sheet ends with a closing brace and a line break,
      so it is never the falsy string "0". */
  lemma {:induction false} CssEndsWithBrace(blocks: seq<Block>)
    requires Css(blocks) != ""
    ensures |Css(blocks)| >= 2 && Css(blocks)[|Css(blocks)| - 2..] == "}\n"
  {
    if |blocks| > 0 {
      RuleNonEmpty(blocks[0]);
      var head := if blocks[0].contents == [] then "" else Rule(blocks[0]);
      var rest := Css(blocks[1..]);
      if rest == "" {
        assert Css(blocks) == head + "";
      } else {
        CssEndsWithBrace(blocks[1..]);
        assert (head + rest)[|head + rest| - 2..] == rest[|rest| - 2..];
      }
    }
  }

  /** Blocks without declarations, such as placeholders, add nothing. */
  lemma {:induction false} EmptyBlocksIgnored(a: seq<Block>, b: seq<Block>, c: Block)
    requires c.contents == []
    ensures Css(a + [c] + b) == Css(a + b)
  {
    CssAppend(a + [c], b);
    CssAppend(a, [c]);
    CssAppend(a, b);
    assert [c][1..] == [];
    assert Css([c]) == "";
    assert Css(a + [c]) == Css(a);
  }
}

=== FILE: indent.dfy ===
/** The indentation model: a line's indent is its exact leading-whitespace
    prefix, compared for equality as a string, and compared for "deeper"
    with PHP's `>` on strings, which for whitespace-only strings is a
    byte-wise lexicographic comparison. */
module Indent {
  import opened Text

  /** `isIndented`: the first character is whitespace. */
  predicate IsIndented(line: string) {
    |line| > 0 && IsSpace(line[0])
  }

  /** `getIndent`: the leading whitespace of `line`, or "" when the first
      character is not whitespace. */
  function GetIndent(line: string): (indent: string)
    ensures StartsWith(line, indent) && AllSpace(indent)
    ensures |indent| < |line| ==> !IsSpace(line[|indent|])
    ensures (|line| == 0 || !IsSpace(line[0])) ==> indent == ""
  {
    if IsIndented(line) then line[..SpaceRun(line)] else ""
  }

  /** PHP `$a > $b` for two strings that are not numeric: `strcmp($a, $b) > 0`. */
  predicate IndentGreater(a: string, b: string)
    decreases |b|
  {
    if |b| == 0 then |a| > 0
    else if |a| == 0 then false
    else if a[0] != b[0] then a[0] > b[0]
    else IndentGreater(a[1..], b[1..])
  }

  /** A line is indented exactly when its indent is not empty. */
  lemma IndentedIffIndent(line: string)
    ensures IsIndented(line) <==> GetIndent(line) != ""
  {
  }

  /** Any whitespace prefix that stops before a non-whitespace character (or
      the end) is the indent: the indent is the maximal whitespace prefix. */
  lemma IndentUnique(line: string, p: string)
    requires StartsWith(line, p) && AllSpace(p)
    requires |p| < |line| ==> !IsSpace(line[|p|])
    ensures GetIndent(line) == p
  {
    var q := GetIndent(line);
    assert line[..|p|] == p;
    assert line[..|q|] == q;
  }

  /** An indent extended by more whitespace is deeper. */
  lemma {:induction false} ExtensionIsGreater(a: string, b: string)
    requires StartsWith(a, b) && |b| < |a|
    ensures IndentGreater(a, b)
    decreases |b|
  {
    if |b| > 0 {
      assert a[0] == b[0];
      assert StartsWith(a[1..], b[1..]) by {
        assert a[1..][..|b| - 1] == a[..|b|][1..];
      }
      ExtensionIsGreater(a[1..], b[1..]);
    }
  }

  /** No indent is deeper than itself. */
  lemma {:induction false} GreaterIrreflexive(a: string)
    ensures !IndentGreater(a, a)
    decreases |a|
  {
    if |a| > 0 {
      GreaterIrreflexive(a[1..]);
    }
  }

  /** The comparison is not by length: one tab is not deeper than two
      spaces, because a tab sorts before a space. */
  lemma TabNotDeeperThanSpaces()
    ensures |"\t"| < |"  "| && IndentGreater("  ", "\t") && !IndentGreater("\t", "  ")
  {
  }
}

=== FILE: mixin_props.dfy ===
/** Properties of `call` and `parseLine`: how a call's output is assembled,
    what delegation returns, and how the line patterns split lines that are
    already in the canonical shapes. */
module MixinProps {
  import opened Results
  import opened Text
  import opened Substitute
  import opened Patterns
  import opened Mixins

  /** Every piece preceded by `sep`, concatenated. */
  function Prefixed(sep: string, ps: seq<string>): string {
    if |ps| == 0 then "" else sep + ps[0] + Prefixed(sep, ps[1..])
  }

  lemma {:induction false} JoinIsPrefixed(sep: string, ps: seq<string>)
    requires |ps| >= 1
    ensures Join(sep, ps) == ps[0] + Prefixed(sep, ps[1..])
  {
    if |ps| >= 2 {
      JoinIsPrefixed(sep, ps[1..]);
      assert ps[1..][1..] == ps[2..];
    }
  }

  lemma Associate(a: string, b: string, c: string, d: string)
    ensures a + b + c + d == a + (b + c + d)
  {
  }

  /** A body line that produces a declaration. */
  predicate Emits(t: Tables, name: string, arguments: string, parentArgs: string, k: nat)
    requires name in t.functions
  {
    k < |t.functions[name].body| && LineOutcome(t, name, arguments, parentArgs, k).Emit?
  }

  /** The pieces of body lines `k..` of a call in which no line delegates
      or fails. */
  function PiecesFrom(t: Tables, name: string, arguments: string, parentArgs: string, k: nat): (ps: seq<string>)
    requires name in t.functions && k <= |t.functions[name].body|
    requires forall j :: k <= j < |t.functions[name].body| ==> Emits(t, name, arguments, parentArgs, j)
    ensures |ps| == |t.functions[name].body| - k
    decreases |t.functions[name].body| - k
  {
    if k == |t.functions[name].body| then []
    else
      assert Emits(t, name, arguments, parentArgs, k);
      [LineOutcome(t, name, arguments, parentArgs, k).piece] + PiecesFrom(t, name, arguments, parentArgs, k + 1)
  }

  lemma {:induction false} CallFromPrefixed(t: Tables, name: string, arguments: string, parentArgs: string,
                                            fuel: nat, k: nat, output: string)
    requires name in t.functions && 0 < k <= |t.functions[name].body|
    requires forall j :: k <= j < |t.functions[name].body| ==> Emits(t, name, arguments, parentArgs, j)
    ensures CallFrom(t, name, arguments, parentArgs, fuel, k, output)
            == Ok(output + Prefixed("\n\t", PiecesFrom(t, name, arguments, parentArgs, k)))
    decreases |t.functions[name].body| - k
  {
    var ps := PiecesFrom(t, name, arguments, parentArgs, k);
    if k < |t.functions[name].body| {
      assert Emits(t, name, arguments, parentArgs, k);
      var piece := LineOutcome(t, name, arguments, parentArgs, k).piece;
      var rest := PiecesFrom(t, name, arguments, parentArgs, k + 1);
      var out' := output + "\n\t" + piece;
      calc {
        CallFrom(t, name, arguments, parentArgs, fuel, k, output);
        CallFrom(t, name, arguments, parentArgs, fuel, k + 1, out');
        { CallFromPrefixed(t, name, arguments, parentArgs, fuel, k + 1, out'); }
        Ok(out' + Prefixed("\n\t", rest));
        { Associate(output, "\n\t", piece, Prefixed("\n\t", rest)); }
        Ok(output + ("\n\t" + piece + Prefixed("\n\t", rest)));
        { assert ps[0] == piece && ps[1..] == rest; }
        Ok(output + Prefixed("\n\t", ps));
      }
    } else {
      assert ps == [];
      assert output + "" == output;
    }
  }

  /** When no body line delegates or fails, a call joins one piece per body
      line, with a line break and a tab before every piece but the first. */
  lemma CallJoinsPieces(t: Tables, name: string, arguments: string, parentArgs: string, fuel: nat)
    requires name in t.functions
    requires forall k :: 0 <= k < |t.functions[name].body| ==> Emits(t, name, arguments, parentArgs, k)
    ensures Call(t, name, arguments, parentArgs, fuel) == Ok(Join("\n\t", PiecesFrom(t, name, arguments, parentArgs, 0)))
  {
    var ps := PiecesFrom(t, name, arguments, parentArgs, 0);
    if |ps| > 0 {
      assert Emits(t, name, arguments, parentArgs, 0);
      CallFromPrefixed(t, name, arguments, parentArgs, fuel, 1, ps[0]);
      assert "" + "" + ps[0] == ps[0];
      assert ps[1..] == PiecesFrom(t, name, arguments, parentArgs, 1);
      JoinIsPrefixed("\n\t", ps);
    }
  }

  lemma {:induction false} CallFromDelegates(t: Tables, name: string, arguments: string, parentArgs: string,
                                             fuel: nat, j: nat, k: nat, output: string)
    requires name in t.functions && j <= k < |t.functions[name].body| && fuel > 0
    requires forall i :: j <= i < k ==> Emits(t, name, arguments, parentArgs, i)
    requires LineOutcome(t, name, arguments, parentArgs, k).DelegateTo?
    ensures var s := LineOutcome(t, name, arguments, parentArgs, k).target;
            CallFrom(t, name, arguments, parentArgs, fuel, j, output) == Call(t, s.name, s.args, arguments, fuel - 1)
    decreases k - j
  {
    if j < k {
      assert Emits(t, name, arguments, parentArgs, j);
      var piece := LineOutcome(t, name, arguments, parentArgs, j).piece;
      CallFromDelegates(t, name, arguments, parentArgs, fuel, j + 1, k,
                        output + (if j > 0 then "\n\t" else "") + piece);
    }
  }

  /** When body line `k` names another defined function and the lines
      before it do not, the call is exactly the call of that function with
      the line's arguments, this call's own arguments as parent arguments;
      the output built so far is dropped. */
  lemma CallDelegates(t: Tables, name: string, arguments: string, parentArgs: string, fuel: nat, k: nat)
    requires name in t.functions && k < |t.functions[name].body| && fuel > 0
    requires forall i :: 0 <= i < k ==> Emits(t, name, arguments, parentArgs, i)
    requires LineOutcome(t, name, arguments, parentArgs, k).DelegateTo?
    ensures var s := LineOutcome(t, name, arguments, parentArgs, k).target;
            s.name != name && Call(t, name, arguments, parentArgs, fuel) == Call(t, s.name, s.args, arguments, fuel - 1)
  {
    CallFromDelegates(t, name, arguments, parentArgs, fuel, 0, k, "");
  }

  /** A line that names the function being called is never delegated. */
  lemma NoSelfDelegation(t: Tables, name: string, arguments: string, parentArgs: string, k: nat)
    requires name in t.functions && k < |t.functions[name].body|
    requires forall line :: InsertVariablesLine(t.vars, t.functions[name].body[k]) == Ok(line) ==>
               DelegationSplit(line).Some? && DelegationSplit(line).value.name == name
    ensures !LineOutcome(t, name, arguments, parentArgs, k).DelegateTo?
  {
  }

  predicate NoneIn(s: string, stops: set<char>) {
    forall k :: 0 <= k < |s| ==> s[k] !in stops
  }

  /** `name: value;` is split by the declaration pattern into `name` and
      `value`. */
  lemma DeclarationSplitCanonical(name: string, value: string)
    requires name != "" && NoneIn(name, NameStops)
    requires value != "" && !IsSpace(value[0]) && ';' !in value
    ensures DeclarationSplit(name + ": " + value + ";") == Some(Split(name, value))
  {
    var line := name + ": " + value + ";";
    CanonicalName(name, value);
    assert line[0..] == line;
    var w := line[|name|..];
    CanonicalGap(value);
    CanonicalArgs(value);
    assert w[2..] == value + ";";
    assert MatchWithName(Declaration, line, |name|, |name|) == Some(Split(name, value));
  }

  /** The name of `name: value;` is read up to the colon. */
  lemma CanonicalName(name: string, value: string)
    requires name != "" && NoneIn(name, NameStops)
    ensures var line := name + ": " + value + ";";
            && SpaceRun(line) == 0 && FirstOf(line, NameStops) == |name|
            && line[..|name|] == name && line[|name|..] == ": " + value + ";"
  {
    var line := name + ": " + value + ";";
    assert !IsSpace(line[0]) by {
      assert line[0] == name[0];
      SpaceCharsAreSpaces(name[0]);
    }
    assert line[..|name|] == name;
    FirstOfUnique(line, NameStops, |name|);
    assert line[|name|..] == ": " + value + ";";
  }

  /** The gap of `: value;` is the colon and the one space. */
  lemma CanonicalGap(value: string)
    requires value != "" && !IsSpace(value[0])
    ensures GapLength(Declaration, ": " + value + ";") == 2
  {
    var w := ": " + value + ";";
    assert SpaceRun(w) == 0;
    assert w[1..] == " " + value + ";";
    assert w[1..][1..] == value + ";";
    assert SpaceRun(w[1..][1..]) == 0;
    assert SpaceRun(w[1..]) == 1;
  }

  /** The arguments of `value;` run up to the semicolon, which the tail
      then accepts. */
  lemma CanonicalArgs(value: string)
    requires value != "" && ';' !in value
    ensures var r := value + ";";
            && FirstOf(r, {';'}) == |value| && r[..|value|] == value && Tail(Declaration, r[|value|..])
  {
    var r := value + ";";
    assert r[..|value|] == value;
    FirstOfUnique(r, {';'}, |value|);
    assert r[|value|..] == ";";
  }

  /** A property whose name is not a function is written `name: value;`
      with the variables substituted into the value. */
  lemma ParseLineCanonical(t: Tables, name: string, value: string, fuel: nat)
    requires name != "" && NoneIn(name, NameStops) && name !in t.functions
    requires value != "" && !IsSpace(value[0]) && ';' !in value
    ensures ParseLine(t, name + ": " + value + ";", fuel) == Ok(name + ": " + InsertVariables(t.vars, value) + ";")
  {
    DeclarationSplitCanonical(name, value);
  }

  /** `name(args)` is split by the delegation pattern into `name` and
      `args`. */
  lemma DelegationSplitCanonical(name: string, args: string)
    requires name != "" && NoneIn(name, NameStops)
    requires args != "" && !IsSpace(args[0]) && ')' !in args && ';' !in args
    ensures DelegationSplit(name + "(" + args + ")") == Some(Split(name, args))
  {
    var line := name + "(" + args + ")";
    CallName(name, args);
    var w := line[|name|..];
    CallGap(args);
    CallArgs(args);
    assert w[1..] == args + ")";
    assert MatchWithName(Delegation, line, |name|, |name|) == Some(Split(name, args));
  }

  /** The name of `name(args)` is read up to the parenthesis. */
  lemma CallName(name: string, args: string)
    requires name != "" && NoneIn(name, NameStops)
    ensures var line := name + "(" + args + ")";
            && FirstOf(line, NameStops) == |name|
            && line[..|name|] == name && line[|name|..] == "(" + args + ")"
  {
    var line := name + "(" + args + ")";
    assert line[..|name|] == name;
    FirstOfUnique(line, NameStops, |name|);
    assert line[|name|..] == "(" + args + ")";
  }

  /** The gap of `(args)` is the opening parenthesis alone. */
  lemma CallGap(args: string)
    requires args != "" && !IsSpace(args[0])
    ensures GapLength(Delegation, "(" + args + ")") == 1
  {
    var w := "(" + args + ")";
    assert SpaceRun(w) == 0;
    assert w[1..] == args + ")";
    assert SpaceRun(w[1..]) == 0;
  }

  /** The arguments of `args)` run up to the parenthesis, which the tail
      then accepts. */
  lemma CallArgs(args: string)
    requires args != "" && ')' !in args && ';' !in args
    ensures var r := args + ")";
            && FirstOf(r, {')', ';'}) == |args| && r[..|args|] == args && Tail(Delegation, r[|args|..])
  {
    var r := args + ")";
    assert r[..|args|] == args;
    FirstOfUnique(r, {')', ';'}, |args|);
    assert r[|args|..] == ")";
  }

  /** A line in which the parameter name does not occur is left alone. */
  lemma {:induction false} ReplaceParamAbsent(x: string, p: string, v: string, i: nat)
    requires |p| > 0 && i <= |x|
    requires forall k :: i <= k <= |x| ==> !OccursAt(x, p, k)
    ensures ReplaceParamFrom(x, p, v, i) == x[i..]
    decreases |x| - i
  {
    if i < |x| {
      if OccursAt(x, "{" + p + "}", i) {
        var w := x[i..i + |p| + 2];
        assert w[1..|p| + 1] == p;
        assert x[i + 1..i + 1 + |p|] == w[1..|p| + 1];
        assert OccursAt(x, p, i + 1);
      }
      ReplaceParamAbsent(x, p, v, i + 1);
      assert x[i..] == [x[i]] + x[i + 1..];
    }
  }

  /** The parameter on its own, as a word or in braces, becomes the
      argument. */
  lemma ReplaceParamWhole(p: string, v: string)
    requires |p| > 0 && IsWordChar(p[0]) && IsWordChar(p[|p| - 1])
    ensures ReplaceParamFrom(p, p, v, 0) == v
    ensures ReplaceParamFrom("{" + p + "}", p, v, 0) == v
  {
    assert OccursAt(p, p, 0);
    assert ReplaceParamFrom(p, p, v, |p|) == "";
    var braced := "{" + p + "}";
    assert !Boundary(braced, 0);
    assert OccursAt(braced, braced, 0);
    assert ReplaceParamFrom(braced, p, v, |p| + 2) == "";
  }

  /** In a body line of a mixin without parameters, every occurrence of
      `arguments` becomes the parent arguments when they are truthy, and
      the call's own arguments otherwise. */
  lemma ArgumentsReplaced(t: Tables, name: string, arguments: string, parentArgs: string, k: nat,
                          parts: seq<string>)
    requires name in t.functions && k < |t.functions[name].body| && t.functions[name].params == []
    requires InsertVariablesLine(t.vars, t.functions[name].body[k]) == Ok(Join("arguments", parts))
    requires DelegationTarget(t, name, Join("arguments", parts)).None?
    requires forall i :: 0 <= i < |parts| ==> !Occurs(parts[i], "arguments")
    ensures LineOutcome(t, name, arguments, parentArgs, k)
            == Emit(Reformat(Join(if Truthy(parentArgs) then parentArgs else arguments, parts)))
  {
    ArgumentsStartsOnce();
    ReplaceAllJoin("arguments", ArgumentsText(arguments, parentArgs), parts);
  }

  /** The first letter of `arguments` does not recur in it. */
  lemma ArgumentsStartsOnce()
    ensures forall j :: 0 < j < |"arguments"| ==> "arguments"[j] != "arguments"[0]
  {
  }

  /** A body line `n p` of a mixin with the one parameter `p`, called with
      one argument `a`, becomes the declaration `n: a;`, with one pair of
      enclosing quotes removed from `a`. */
  lemma OneParameterLine(t: Tables, name: string, a: string, parentArgs: string, k: nat,
                         n: string, p: string)
    requires name in t.functions && k < |t.functions[name].body| && t.functions[name].params == [p]
    requires |p| > 0 && forall j :: 0 <= j < |p| ==> IsWordChar(p[j])
    requires InsertVariablesLine(t.vars, t.functions[name].body[k]) == Ok(n + " " + p)
    requires DelegationTarget(t, name, n + " " + p).None?
    requires n != "" && ':' !in n && ' ' !in n && !Occurs(n, p) && !Occurs(n, "arguments")
    requires a != "" && ',' !in a && ';' !in a && !Occurs(a, "arguments")
    ensures LineOutcome(t, name, a, parentArgs, k) == Emit(n + ": " + StripQuotes(a) + ";")
  {
    var v := StripQuotes(a);
    SingleActual(a);
    ParamAfterName(n, p, v);
    assert BindParams([p], [a], n + " " + p, 0) == Ok(n + " " + v);
    StrippedAvoids(a, "arguments");
    NoOccurrenceAround(n, v, "arguments");
    ReplaceAllAbsent(n + " " + v, "arguments", ArgumentsText(a, parentArgs));
    ReformatPlain(n, v);
  }

  /** An argument string without a comma is one actual argument. */
  lemma SingleActual(a: string)
    requires ',' !in a
    ensures SplitCommaSpaces(a) == [a]
  {
    FirstOfUnique(a, {','}, |a|);
  }

  /** The parameter after a name and a space is replaced, and the name is
      kept. */
  lemma ParamAfterName(n: string, p: string, v: string)
    requires |p| > 0 && forall j :: 0 <= j < |p| ==> IsWordChar(p[j])
    requires !Occurs(n, p)
    ensures ReplaceParamFrom(n + " " + p, p, v, 0) == n + " " + v
  {
    ParamAfterFrom(n, p, v, 0);
    assert (n + " ")[0..] == n + " ";
  }

  /** `ReplaceParamFrom`, as the subject of the lemmas below. */
  function ParamFrom(x: string, p: string, v: string, i: nat): string
    requires i <= |x|
  {
    ReplaceParamFrom(x, p, v, i)
  }

  lemma {:induction false} ParamAfterFrom(n: string, p: string, v: string, i: nat)
    requires |p| > 0 && forall j :: 0 <= j < |p| ==> IsWordChar(p[j])
    requires !Occurs(n, p) && i <= |n| + 1
    ensures ParamFrom(n + " " + p, p, v, i) == (n + " ")[i..] + v
    decreases |n| + 1 - i
  {
    var x := n + " " + p;
    if i == |n| + 1 {
      ParamAtEnd(n, p, v);
    } else {
      NoParamAt(n, p, i);
      ParamSkipStep(x, p, v, i);
      ParamAfterFrom(n, p, v, i + 1);
      assert (n + " ")[i..] == [x[i]] + (n + " ")[i + 1..];
    }
  }

  /** The parameter right after the space is replaced. */
  lemma ParamAtEnd(n: string, p: string, v: string)
    requires |p| > 0 && forall j :: 0 <= j < |p| ==> IsWordChar(p[j])
    ensures ParamFrom(n + " " + p, p, v, |n| + 1) == v
  {
    var x := n + " " + p;
    assert x[|n| + 1..] == p;
    assert Boundary(x, |n| + 1) && Boundary(x, |x|);
    assert OccursAt(x, p, |n| + 1);
    assert ReplaceParamFrom(x, p, v, |x|) == "";
  }

  /** Neither `p` nor `{p}` starts inside `n` or at the space after it. */
  lemma NoParamAt(n: string, p: string, k: nat)
    requires |p| > 0 && forall j :: 0 <= j < |p| ==> IsWordChar(p[j])
    requires !Occurs(n, p) && k <= |n|
    ensures !OccursAt(n + " " + p, p, k) && !OccursAt(n + " " + p, "{" + p + "}", k)
  {
    var x := n + " " + p;
    if k + |p| <= |n| {
      assert x[k..k + |p|] == n[k..k + |p|];
      assert !OccursAt(n, p, k);
    } else if k + |p| <= |x| {
      assert x[k..k + |p|][|n| - k] == ' ';
      assert IsWordChar(p[|n| - k]);
    }
    var w := "{" + p + "}";
    if k + |w| <= |n| {
      SliceOfSlice(x, k, k + |w|, 1, |p| + 1);
      assert x[k + 1..k + 1 + |p|] == n[k + 1..k + 1 + |p|];
      assert w[1..|p| + 1] == p;
      assert !OccursAt(n, p, k + 1);
    } else if k + |w| <= |x| {
      var d := |n| - k;
      assert x[k..k + |w|][d] == ' ';
      if 0 < d <= |p| {
        assert w[d] == p[d - 1] && IsWordChar(p[d - 1]);
      }
    }
  }

  lemma SliceOfSlice(s: string, i: nat, j: nat, a: nat, b: nat)
    requires i <= j <= |s| && a <= b <= j - i
    ensures s[i..j][a..b] == s[i + a..i + b]
  {
    forall m | 0 <= m < b - a
      ensures s[i..j][a..b][m] == s[i + a..i + b][m]
    {
      assert s[i..j][a..b][m] == s[i..j][a + m] == s[i + a + m];
    }
  }

  /** The replacement passes over a character at which neither `p` nor
      `{p}` starts. */
  lemma ParamSkipStep(x: string, p: string, v: string, i: nat)
    requires |p| > 0 && i < |x| && !OccursAt(x, p, i) && !OccursAt(x, "{" + p + "}", i)
    ensures ParamFrom(x, p, v, i) == [x[i]] + ParamFrom(x, p, v, i + 1)
  {
  }

  /** Removing the quotes keeps an argument non-empty and free of `;` and
      of `pat`. */
  lemma StrippedAvoids(a: string, pat: string)
    requires a != "" && ';' !in a && !Occurs(a, pat)
    ensures StripQuotes(a) != "" && ';' !in StripQuotes(a) && !Occurs(StripQuotes(a), pat)
  {
    var r := StripQuotes(a);
    if r != a {
      var inner := a[1..|a| - 1];
      assert r == inner;
      forall k | 0 <= k <= |inner|
        ensures !OccursAt(inner, pat, k)
      {
        if k + |pat| <= |inner| {
          SliceOfSlice(a, 1, |a| - 1, k, k + |pat|);
          assert !OccursAt(a, pat, k + 1);
        }
      }
      forall k | 0 <= k < |inner|
        ensures inner[k] != ';'
      {
        assert inner[k] == a[k + 1];
      }
    }
  }

  /** A pattern without a space that occurs neither in `n` nor in `v` does
      not occur in `n v`. */
  lemma NoOccurrenceAround(n: string, v: string, pat: string)
    requires |pat| > 0 && ' ' !in pat
    requires !Occurs(n, pat) && !Occurs(v, pat)
    ensures !Occurs(n + " " + v, pat)
  {
    var x := n + " " + v;
    forall k | 0 <= k <= |x|
      ensures !OccursAt(x, pat, k)
    {
      if k + |pat| <= |n| {
        assert x[k..k + |pat|] == n[k..k + |pat|];
        assert !OccursAt(n, pat, k);
      } else if k >= |n| + 1 && k + |pat| <= |x| {
        assert x[k..k + |pat|] == v[k - |n| - 1..k - |n| - 1 + |pat|];
        assert !OccursAt(v, pat, k - |n| - 1);
      } else if k + |pat| <= |x| {
        assert x[k..k + |pat|][|n| - k] == ' ';
      }
    }
  }

  /** `Reformat` turns `name value` into `name: value;`. */
  lemma ReformatPlain(n: string, v: string)
    requires n != "" && ':' !in n && ' ' !in n
    requires v != "" && ';' !in v
    ensures Reformat(n + " " + v) == n + ": " + v + ";"
  {
    var x := n + " " + v;
    assert x[..|n|] == n;
    FirstOfUnique(x, {':', ' '}, |n|);
    var rest := x[|n|..];
    assert rest == " " + v;
    assert !StartsWith(rest, ": ") by {
      if |rest| >= 2 {
        assert rest[..2][0] == ' ';
      }
    }
    assert rest[..1] == " ";
    assert rest[1..] == v;
    FirstOfUnique(v, {';'}, |v|);
    assert v[..|v|] == v;
  }
}

=== FILE: mixins.dfy ===
/** User functions (mixins): `addFunction`, `call` and `parseLine`.

    Delegation (a body line naming another function) can cycle between two
    functions, which in PHP recurses until the process runs out of memory;
    `Call` therefore carries a `fuel` bound and fails with `FuelExhausted`
    when it is used up. */
module Mixins {
  import opened Results
  import opened Text
  import opened Indent
  import opened Classify
  import opened Substitute
  import opened Patterns

  /** A user function: its formal parameters and its trimmed body lines. */
  datatype Function = Function(params: seq<string>, body: seq<string>)

  /** The variable and function tables a line is resolved against. */
  datatype Tables = Tables(functions: map<string, Function>, vars: Vars)

  /** `$matches[2] ? preg_split('~,\s*~', $matches[2]) : ''`; a falsy
      parameter text ("" or "0") gives no parameters. */
  function FormalParams(text: string): (params: seq<string>)
    ensures Truthy(text) <==> params != []
  {
    if Truthy(text) then SplitCommaSpaces(text) else []
  }

  /** The result of `addFunction`: the declared name, the definition and the
      cursor left on the last body line. */
  datatype Declared = Declared(name: string, def: Function, cursor: nat)

  /** Index of the first line at or after `j` that is not indented. */
  function BodyEnd(lines: seq<string>, j: nat): (e: nat)
    requires j <= |lines|
    ensures j <= e <= |lines|
    ensures forall k :: j <= k < e ==> IsIndented(lines[k])
    ensures e < |lines| ==> !IsIndented(lines[e])
    decreases |lines| - j
  {
    if j == |lines| || !IsIndented(lines[j]) then j else BodyEnd(lines, j + 1)
  }

  /** What `addFunction` captures for the header at line `i`: the cursor
      ends on the last of the indented lines that follow the header, and
      the body is those lines, trimmed, in order. */
  predicate CapturesBody(lines: seq<string>, i: nat, d: Declared)
    requires i < |lines|
  {
    && i <= d.cursor < |lines|
    && |d.def.body| == d.cursor - i
    && (forall k :: 0 <= k < |d.def.body| ==>
          IsIndented(lines[i + 1 + k]) && d.def.body[k] == Trim(lines[i + 1 + k]))
    && (d.cursor + 1 == |lines| || !IsIndented(lines[d.cursor + 1]))
  }

  /** `addFunction`: parse the header at line `i` and capture the indented
      lines after it, trimmed. A header without a closing parenthesis
      leaves PHP reading an undefined match index; the model fails there. */
  function AddFunction(lines: seq<string>, i: nat): (r: Result<Declared>)
    requires i < |lines| && IsFunctionDeclaration(lines[i])
    ensures r.Ok? <==> FunctionHeader(lines[i]).Some?
    ensures r.Ok? ==> i <= r.value.cursor < |lines|
    ensures r.Ok? ==> r.value.cursor + 1 == BodyEnd(lines, i + 1)
    ensures r.Ok? ==> r.value.def.body == TrimmedLines(lines, i + 1, BodyEnd(lines, i + 1))
  {
    assert IsNameChar(lines[i][0]);
    match FunctionHeader(lines[i])
    case None => Fail(UndefinedIndex("addFunction: header without a closing parenthesis"))
    case Some(h) =>
      var e := BodyEnd(lines, i + 1);
      Ok(Declared(h.name, Function(FormalParams(h.params), TrimmedLines(lines, i + 1, e)), e - 1))
  }

  /** The body `addFunction` captures is the run of indented lines after
      the header, trimmed, and the cursor is left on the last of them. */
  lemma AddFunctionCaptures(lines: seq<string>, i: nat)
    requires i < |lines| && IsFunctionDeclaration(lines[i])
    ensures AddFunction(lines, i).Ok? ==> CapturesBody(lines, i, AddFunction(lines, i).value)
  {
    var r := AddFunction(lines, i);
    if r.Ok? {
      var e := BodyEnd(lines, i + 1);
      var body := TrimmedLines(lines, i + 1, e);
      forall k | 0 <= k < |body|
        ensures IsIndented(lines[i + 1 + k]) && body[k] == Trim(lines[i + 1 + k])
      {
        assert i + 1 <= i + 1 + k < e;
      }
    }
  }

  /** Lines `j` to `e` (exclusive), trimmed. */
  function TrimmedLines(lines: seq<string>, j: nat, e: nat): (body: seq<string>)
    requires j <= e <= |lines|
    ensures |body| == e - j
    ensures forall k :: 0 <= k < |body| ==> body[k] == Trim(lines[j + k])
  {
    seq(e - j, k requires 0 <= k < e - j => Trim(lines[j + k]))
  }

  /** `preg_replace('~(\bP\b)|(\{P\})~', $v, $x)` from position `i`, with
      the parameter name `p` read literally. For an empty name the first
      alternative matches the empty string at every word boundary; PCRE
      then retries a non-empty match at the same place before moving on. */
  function ReplaceParamFrom(x: string, p: string, v: string, i: nat): (r: string)
    requires i <= |x|
    decreases |x| - i
  {
    if |p| > 0 then
      if i == |x| then ""
      else if Boundary(x, i) && OccursAt(x, p, i) && Boundary(x, i + |p|) then
        v + ReplaceParamFrom(x, p, v, i + |p|)
      else if OccursAt(x, "{" + p + "}", i) then v + ReplaceParamFrom(x, p, v, i + |p| + 2)
      else [x[i]] + ReplaceParamFrom(x, p, v, i + 1)
    else
      var empty := if Boundary(x, i) then v else "";
      if OccursAt(x, "{}", i) then empty + v + ReplaceParamFrom(x, p, v, i + 2)
      else if i == |x| then empty
      else empty + [x[i]] + ReplaceParamFrom(x, p, v, i + 1)
  }

  /** The `foreach ($user_args as $j => $args)` loop: actual argument `j`
      loses one pair of enclosing quotes and replaces formal parameter `j`.
      An actual argument without a formal parameter leaves PHP reading an
      undefined index; the model fails there. */
  function BindParams(params: seq<string>, actuals: seq<string>, line: string, j: nat): (r: Result<string>)
    requires j <= |actuals|
    ensures r.Ok? <==> |actuals| <= |params| || j == |actuals|
    decreases |actuals| - j
  {
    if j == |actuals| then Ok(line)
    else if j >= |params| then Fail(UndefinedIndex("call: more arguments than parameters"))
    else BindParams(params, actuals, ReplaceParamFrom(line, params[j], StripQuotes(actuals[j]), 0), j + 1)
  }

  /** What one body line of a call turns into. */
  datatype LineStep =
    | Emit(piece: string)      // a formatted declaration
    | DelegateTo(target: Split) // the call continues as a call of another function
    | Stop(error: Error)

  /** The delegation test: the substituted line names a different, defined
      function. */
  function DelegationTarget(t: Tables, name: string, line: string): (r: Option<Split>)
    ensures r.Some? ==> r.value.name in t.functions && r.value.name != name
    ensures r.Some? ==> DelegationSplit(line) == r
    ensures (DelegationSplit(line).Some? && DelegationSplit(line).value.name in t.functions
             && DelegationSplit(line).value.name != name) ==> r == DelegationSplit(line)
  {
    match DelegationSplit(line)
    case Some(s) => if s.name in t.functions && s.name != name then Some(s) else None
    case None => None
  }

  /** The text `arguments` stands for: the parent argument string when one
      was passed (PHP truthiness), the call's own arguments otherwise. */
  function ArgumentsText(arguments: string, parentArgs: string): string {
    if Truthy(parentArgs) then parentArgs else arguments
  }

  /** Body line `k` of function `name`, called with `arguments`. */
  function LineOutcome(t: Tables, name: string, arguments: string, parentArgs: string, k: nat): (r: LineStep)
    requires name in t.functions && k < |t.functions[name].body|
    ensures r.DelegateTo? ==> r.target.name in t.functions && r.target.name != name
  {
    var f := t.functions[name];
    match InsertVariablesLine(t.vars, f.body[k])
    case Fail(e) => Stop(e)
    case Ok(line) =>
      match DelegationTarget(t, name, line)
      case Some(s) => DelegateTo(s)
      case None =>
        var bound := if f.params != [] then BindParams(f.params, SplitCommaSpaces(arguments), line, 0) else Ok(line);
        match bound
        case Fail(e) => Stop(e)
        case Ok(b) => Emit(Reformat(ReplaceAll(b, "arguments", ArgumentsText(arguments, parentArgs))))
  }

  /** `call($name, $arguments, $parent_args)`. */
  function Call(t: Tables, name: string, arguments: string, parentArgs: string, fuel: nat): Result<string>
    requires name in t.functions
    decreases fuel, |t.functions[name].body| + 1
  {
    CallFrom(t, name, arguments, parentArgs, fuel, 0, "")
  }

  /** The loop of `call` from body line `k`, with `output` built so far. */
  function CallFrom(t: Tables, name: string, arguments: string, parentArgs: string, fuel: nat,
                    k: nat, output: string): Result<string>
    requires name in t.functions && k <= |t.functions[name].body|
    decreases fuel, |t.functions[name].body| - k
  {
    if k == |t.functions[name].body| then Ok(output)
    else match LineOutcome(t, name, arguments, parentArgs, k)
      case Stop(e) => Fail(e)
      case DelegateTo(s) =>
        if fuel == 0 then Fail(FuelExhausted) else Call(t, s.name, s.args, arguments, fuel - 1)
      case Emit(piece) =>
        CallFrom(t, name, arguments, parentArgs, fuel, k + 1, output + (if k > 0 then "\n\t" else "") + piece)
  }

  /** `parseLine`: a line naming a function calls it with the parentheses
      removed from the arguments; any other line becomes `name: value;`
      with the variables substituted. A line the pattern does not match
      leaves PHP with null name and arguments, which read as "". */
  function ParseLine(t: Tables, line: string, fuel: nat): (r: Result<string>)
    ensures (DeclarationSplit(line).None? && "" !in t.functions) ==>
              r == Ok(": " + InsertVariables(t.vars, "") + ";")
    ensures DeclarationSplit(line).Some? && DeclarationSplit(line).value.name !in t.functions ==>
              var s := DeclarationSplit(line).value;
              r == Ok(s.name + ": " + InsertVariables(t.vars, s.args) + ";")
    ensures DeclarationSplit(line).Some? && DeclarationSplit(line).value.name in t.functions ==>
              var s := DeclarationSplit(line).value;
              r == Call(t, s.name, RemoveChar(RemoveChar(s.args, '('), ')'), "", fuel)
    ensures DeclarationSplit(line).None? && "" in t.functions ==> r == Call(t, "", "", "", fuel)
  {
    var s := DeclarationSplit(line).GetOr(Split("", ""));
    if s.name in t.functions then Call(t, s.name, RemoveChar(RemoveChar(s.args, '('), ')'), "", fuel)
    else
      assert s.name == "" ==> s.name + ": " == ": ";
      Ok(s.name + ": " + InsertVariables(t.vars, s.args) + ";")
  }
}

=== FILE: patterns.dfy ===
/** The regular expressions that take a line apart, written out with PCRE's
    leftmost, greedy, backtracking semantics:
    - the declaration pattern of `parseLine` (Stylus.php:246),
    - the delegation pattern of `call` (Stylus.php:210),
    - the `name: value;` reformatting of `call` (Stylus.php:230),
    - the quote stripping of `call` (Stylus.php:222),
    - the header and value patterns of `addFunction` and `addVariable`.
    `$` is read as the end of the subject. */
module Patterns {
  import opened Results
  import opened Text

  /** A line split into its leading name and its argument text. */
  datatype Split = Split(name: string, args: string)

  const SpaceChars: set<char> := {' ', '\t', '\n', '\r', '\U{000B}', '\U{000C}'}

  /** The characters that end the name `[^:\s(]+`. */
  const NameStops: set<char> := SpaceChars + {':', '('}

  lemma SpaceCharsAreSpaces(c: char)
    ensures c in SpaceChars <==> IsSpace(c)
  {
  }

  /** `;?\s*$`, the tail of the declaration pattern. */
  predicate DeclTail(x: string) {
    x == "" || (x[0] == ';' && AllSpace(x[1..]))
  }

  /** `\)?;?\s*$`, the tail of the delegation pattern. */
  predicate CallTail(x: string) {
    var a := if |x| > 0 && x[0] == ')' then 1 else 0;
    var b := if a < |x| && x[a] == ';' then a + 1 else a;
    AllSpace(x[b..])
  }

  /** Which of the two patterns is being matched. */
  datatype Pattern = Declaration | Delegation

  function ArgStops(p: Pattern): set<char> {
    match p
    case Declaration => {';'}
    case Delegation => {')', ';'}
  }

  predicate Tail(p: Pattern, x: string) {
    match p
    case Declaration => DeclTail(x)
    case Delegation => CallTail(x)
  }

  /** Length of the greedy gap between the name and the arguments:
      `\s*:?\s*` for a declaration, `:?\s*\(?\s*` for a delegation. */
  function GapLength(p: Pattern, w: string): (g: nat)
    ensures g <= |w|
    ensures forall k :: 0 <= k < g ==> w[k] !in ArgStops(p)
  {
    match p
    case Declaration => DeclarationGap(w)
    case Delegation => DelegationGap(w)
  }

  /** `\s*:?\s*`, greedily. */
  function DeclarationGap(w: string): (g: nat)
    ensures g <= |w|
    ensures forall k :: 0 <= k < g ==> w[k] != ';'
  {
    var s1 := SpaceRun(w);
    var c := if s1 < |w| && w[s1] == ':' then 1 else 0;
    SpacesAvoid(w, 0, {';'});
    SpacesAvoid(w, s1 + c, {';'});
    s1 + c + SpaceRun(w[s1 + c..])
  }

  /** `:?\s*\(?\s*`, greedily. */
  function DelegationGap(w: string): (g: nat)
    ensures g <= |w|
    ensures forall k :: 0 <= k < g ==> w[k] != ')' && w[k] != ';'
  {
    var c := if |w| > 0 && w[0] == ':' then 1 else 0;
    var s1 := c + SpaceRun(w[c..]);
    var o := if s1 < |w| && w[s1] == '(' then 1 else 0;
    SpacesAvoid(w, c, {')', ';'});
    SpacesAvoid(w, s1 + o, {')', ';'});
    s1 + o + SpaceRun(w[s1 + o..])
  }

  /** A run of whitespace holds none of the argument stops. */
  lemma SpacesAvoid(w: string, i: nat, stops: set<char>)
    requires i <= |w| && forall c :: c in stops ==> c == ';' || c == ')'
    ensures forall k :: i <= k < i + SpaceRun(w[i..]) ==> w[k] !in stops
  {
    forall k | i <= k < i + SpaceRun(w[i..])
      ensures w[k] !in stops
    {
      assert w[k] == w[i..][..SpaceRun(w[i..])][k - i];
    }
  }

  /** The match with the name `t[..k]`, where `n` is the length of the
      greedy name. With the greedy name the gap is greedy too; when that
      leaves no argument, backtracking hands the gap's last character to
      the arguments. With a shorter name the gap is empty. */
  function MatchWithName(p: Pattern, t: string, n: nat, k: nat): (r: Option<Split>)
    requires 0 < k <= n <= |t|
    ensures r.Some? ==> r.value.name == t[..k] && r.value.args != ""
  {
    if k == n then
      var w := t[n..];
      var g := GapLength(p, w);
      var r := w[g..];
      var a := FirstOf(r, ArgStops(p));
      if a > 0 then (if Tail(p, r[a..]) then Some(Split(t[..n], r[..a])) else None)
      else if g > 0 && Tail(p, r) then Some(Split(t[..n], [w[g - 1]]))
      else None
    else
      var a := FirstOf(t[k..], ArgStops(p));
      if a > 0 && Tail(p, t[k + a..]) then Some(Split(t[..k], t[k..k + a])) else None
  }

  /** Backtracking over the name length, longest first. */
  function SearchName(p: Pattern, t: string, n: nat, k: nat): (r: Option<Split>)
    requires k <= n <= |t|
    ensures r.Some? ==> 0 < |r.value.name| <= k && r.value.name == t[..|r.value.name|]
    ensures r.Some? ==> r.value.args != ""
  {
    if k == 0 then None
    else match MatchWithName(p, t, n, k)
      case Some(s) => Some(s)
      case None => SearchName(p, t, n, k - 1)
  }

  /** The whole pattern against `t` (after the leading `\s*` for a
      declaration). */
  function MatchPattern(p: Pattern, t: string): (r: Option<Split>)
    ensures r.Some? ==> r.value.name != "" && StartsWith(t, r.value.name)
    ensures r.Some? ==> forall k :: 0 <= k < |r.value.name| ==> r.value.name[k] !in NameStops
  {
    var n := FirstOf(t, NameStops);
    SearchName(p, t, n, n)
  }

  /** `~^\s*([^:\s\(]+)\s*:?\s*([^;]+);?\s*$~` of `parseLine`. */
  function DeclarationSplit(line: string): Option<Split> {
    MatchPattern(Declaration, line[SpaceRun(line)..])
  }

  /** `~^([^:\s(]+):?\s*\(?\s*([^);]+)\)?;?\s*$~` of `call`. */
  function DelegationSplit(line: string): Option<Split> {
    MatchPattern(Delegation, line)
  }

  /** `preg_replace('~^([^: ]+):? ([^;]+);?$~', '$1: $2;', $x)`: a line of
      the shape `name value`, `name: value` or either with a final `;`
      comes back as `name: value;`; any other line comes back unchanged. */
  function Reformat(x: string): (r: string)
    ensures r == x || (|r| >= 5 && r[|r| - 1] == ';')
  {
    var n := FirstOf(x, {':', ' '});
    var rest := x[n..];
    var skip := if StartsWith(rest, ": ") then 2 else if StartsWith(rest, " ") then 1 else 0;
    var value := rest[skip..];
    var v := FirstOf(value, {';'});
    if n > 0 && skip > 0 && v > 0 && (v == |value| || value[v..] == ";") then
      x[..n] + ": " + value[..v] + ";"
    else x
  }

  predicate IsQuote(c: char) {
    c == '\'' || c == '"'
  }

  /** `preg_replace('~^([\'"]?)([^\1]+)(\1)$~', '$2', $a)`. In PCRE `[^\1]`
      is the class of every character except the one with code 1, not a
      back-reference; so one pair of equal enclosing quotes is removed from
      an argument of at least three characters. */
  function StripQuotes(a: string): (r: string)
    ensures |a| >= 3 && IsQuote(a[0]) && a[|a| - 1] == a[0] && '\U{0001}' !in a[1..|a| - 1]
            ==> r == a[1..|a| - 1]
    ensures !(|a| >= 3 && IsQuote(a[0]) && a[|a| - 1] == a[0]) ==> r == a
  {
    if |a| >= 3 && IsQuote(a[0]) && a[|a| - 1] == a[0] && '\U{0001}' !in a[1..|a| - 1] then a[1..|a| - 1]
    else a
  }

  /** `preg_replace('~(^[^=]+=\s*)|;~', '', $x)` of `addVariable`: drop
      everything up to the first `=` and the whitespace after it, and every
      `;`. */
  function StripAssignment(x: string): (r: string)
    ensures ';' !in r
  {
    var p := FirstOf(x, {'='});
    if 0 < p < |x| then
      var after := x[p + 1..];
      RemoveChar(after[SpaceRun(after)..], ';')
    else RemoveChar(x, ';')
  }

  /** The name captured by `~^([\$a-zA-Z0-9_-]+)\s*=\s*([^;]+);?$~` of
      `addVariable`, or `None` when the line does not match. */
  function VariableName(line: string): (r: Option<string>)
    ensures r.Some? ==> r.value != "" && StartsWith(line, r.value)
  {
    var n := NameRun(line);
    var rest := line[n..];
    var s := SpaceRun(rest);
    if n > 0 && s < |rest| && rest[s] == '=' then
      var value := rest[s + 1..];
      var q := FirstOf(value, {';'});
      if q > 0 && (q == |value| || value[q..] == ";") then Some(line[..n]) else None
    else None
  }

  /** A function header `name(params)` of `addFunction`. */
  datatype Header = Header(name: string, params: string)

  /** `~([^(]+)\(\s*([^)]*)\s*\)~` of `addFunction`, for a line that does
      not start with `(`: the name is everything before the first `(`, the
      parameter text runs from the first non-space after it to the next
      `)`; there is no match without such a `)`. */
  function FunctionHeader(line: string): (r: Option<Header>)
    requires |line| > 0 && line[0] != '('
    ensures r.Some? ==> r.value.name != "" && '(' !in r.value.name && ')' !in r.value.params
  {
    var o := FirstOf(line, {'('});
    if o == |line| then None
    else
      var after := line[o + 1..];
      var start := SpaceRun(after);
      var close := FirstOf(after, {')'});
      if close == |after| then None
      else
        var params := if start <= close then after[start..close] else "";
        Some(Header(line[..o], params))
  }

  /** A line already in the `name: value;` shape is left as it is. */
  lemma ReformatCanonical(name: string, value: string)
    requires name != "" && ':' !in name && ' ' !in name
    requires value != "" && ';' !in value
    ensures Reformat(name + ": " + value + ";") == name + ": " + value + ";"
  {
    var x := name + ": " + value + ";";
    assert x[..|name|] == name;
    FirstOfUnique(x, {':', ' '}, |name|);
    var rest := x[|name|..];
    assert rest == ": " + value + ";";
    assert StartsWith(rest, ": ");
    var value' := rest[2..];
    assert value' == value + ";";
    assert value'[..|value|] == value;
    FirstOfUnique(value', {';'}, |value|);
    assert value'[|value|..] == ";";
  }

  /** Reformatting is idempotent: its output is already in the canonical
      `name: value;` shape. */
  lemma ReformatIdempotent(x: string)
    ensures Reformat(Reformat(x)) == Reformat(x)
  {
    var n := FirstOf(x, {':', ' '});
    var rest := x[n..];
    var skip := if StartsWith(rest, ": ") then 2 else if StartsWith(rest, " ") then 1 else 0;
    var value := rest[skip..];
    var v := FirstOf(value, {';'});
    if n > 0 && skip > 0 && v > 0 && (v == |value| || value[v..] == ";") {
      ReformatCanonical(x[..n], value[..v]);
    }
  }

  /** Quoting an argument and stripping the quotes gives it back. */
  lemma StripQuotesRoundTrip(a: string, q: char)
    requires a != "" && IsQuote(q) && '\U{0001}' !in a
    ensures StripQuotes([q] + a + [q]) == a
  {
    var x := [q] + a + [q];
    assert x[1..|x| - 1] == a;
  }

  /** An argument that does not start with a quote is bound as it is. */
  lemma StripQuotesUnquoted(a: string)
    requires a == "" || !IsQuote(a[0])
    ensures StripQuotes(a) == a
  {
  }
}

=== FILE: render.dfy ===
/** The engine and its driver, `render`: the input is cut into lines, each
    line is dispatched to `addFunction`, `addVariable`, `addBlock` or
    `import`, and the blocks are written out as CSS; the tables are cleared
    afterwards.

    File contents are an input: `files` maps a path to what `fopen` and
    `fread` would produce. Two bounds keep every run finite: `calls` bounds
    mixin delegation and `imports` bounds the number of `@import` lines
    processed (an import may import itself). A block line that the block
    reader does not consume sends the PHP loop back to the same line
    forever; the model reports `NoProgress` there. */
module Engine {
  import opened Results
  import opened Text
  import opened Indent
  import opened Classify
  import opened Substitute
  import opened Patterns
  import opened Mixins
  import opened Blocks
  import opened Emit

  /** The state of a `Stylus` object. `file` starts as PHP's null, which
      the model writes as "". */
  datatype Stylus = Stylus(readDir: string, importDir: string, functions: map<string, Function>,
                           blocks: seq<Block>, vars: Vars, file: string)

  /** A fresh engine reading from `readDir` and importing from `importDir`
      ("" when no import directory is set). */
  function NewStylus(readDir: string, importDir: string): (st: Stylus)
    ensures st.functions == map[] && st.blocks == [] && st.vars == map[] && st.file == ""
  {
    Stylus(readDir, importDir, map[], [], map[], "")
  }

  /** `assign($name, $value)`: binds one variable and leaves every other
      binding and every other part of the state as it was. */
  function Assign(st: Stylus, name: string, value: string): (r: Stylus)
    ensures name in r.vars && r.vars[name] == value
    ensures forall n :: n != name ==> (n in r.vars <==> n in st.vars)
    ensures forall n :: n != name && n in st.vars ==> r.vars[n] == st.vars[n]
    ensures r.functions == st.functions && r.blocks == st.blocks && r.file == st.file
    ensures r.readDir == st.readDir && r.importDir == st.importDir
  {
    st.(vars := st.vars[name := value])
  }

  function TablesOf(st: Stylus): Tables {
    Tables(st.functions, st.vars)
  }

  /** `addVariable($line)`: the name from the variable pattern, the value
      from `parseLine` with everything up to the `=` and every `;` removed.
      A line the variable pattern does not match leaves PHP reading an
      undefined match index; the model fails there. */
  function AddVariable(st: Stylus, line: string, calls: nat): (r: Result<Stylus>)
    ensures r.Ok? ==> VariableName(line).Some?
    ensures r.Ok? ==> var name := VariableName(line).value;
              name in r.value.vars && ';' !in r.value.vars[name]
    ensures r.Ok? ==> r.value.functions == st.functions && r.value.blocks == st.blocks
    ensures r.Ok? <==> VariableName(line).Some? && ParseLine(TablesOf(st), line, calls).Ok?
    ensures r.Ok? ==> r.value == Assign(st, VariableName(line).value,
                                        StripAssignment(ParseLine(TablesOf(st), line, calls).value))
  {
    match VariableName(line)
    case None => Fail(UndefinedIndex("addVariable: line does not match the variable pattern"))
    case Some(name) =>
      var parsed :- ParseLine(TablesOf(st), line, calls);
      Ok(Assign(st, name, StripAssignment(parsed)))
  }

  /** `~^\s*}\s*$~`: a line holding only a closing brace. */
  predicate IsClosingBrace(line: string) {
    var s := SpaceRun(line);
    s < |line| && line[s] == '}' && AllSpace(line[s + 1..])
  }

  /** Closing-brace lines blanked, then empty lines dropped
      (`array_values(array_filter(..., 'strlen'))`). */
  function Clean(parts: seq<string>): (r: seq<string>)
    ensures |r| <= |parts|
    ensures forall k :: 0 <= k < |r| ==> r[k] != "" && !IsClosingBrace(r[k])
    ensures forall k :: 0 <= k < |r| ==> r[k] in parts
  {
    if |parts| == 0 then []
    else (if parts[0] == "" || IsClosingBrace(parts[0]) then [] else [parts[0]]) + Clean(parts[1..])
  }

  /** The lines of a text as `render` and `import` read them. */
  function Preprocess(text: string): (lines: seq<string>)
    ensures forall k :: 0 <= k < |lines| ==> lines[k] != "" && !IsClosingBrace(lines[k])
    ensures forall k :: 0 <= k < |lines| ==> '\n' !in lines[k] && '\r' !in lines[k]
  {
    Clean(SplitLines(text))
  }

  /** Where a match of the import pattern starts and what it captures. */
  datatype Found = Found(at: nat, name: string)

  /** `@import\s*['"]([^'"]+)['"].*$` matched at `p`: the captured name. */
  function ImportMatchAt(line: string, p: nat): (r: Option<string>)
    ensures r.Some? ==> r.value != "" && '\'' !in r.value && '"' !in r.value
  {
    if !OccursAt(line, "@import", p) then None
    else
      var q := p + 7 + SpaceRun(line[p + 7..]);
      if q < |line| && IsQuote(line[q]) then
        var c := FirstOf(line[q + 1..], {'\'', '"'});
        if c > 0 && q + 1 + c < |line| then Some(line[q + 1..q + 1 + c]) else None
      else None
  }

  /** The leftmost match at or after `p`. */
  function ImportSearch(line: string, p: nat): (r: Option<Found>)
    requires p <= |line|
    ensures r.Some? ==> p <= r.value.at <= |line| && ImportMatchAt(line, r.value.at) == Some(r.value.name)
    ensures r.Some? ==> forall q :: p <= q < r.value.at ==> ImportMatchAt(line, q).None?
    decreases |line| - p
  {
    match ImportMatchAt(line, p)
    case Some(n) => Some(Found(p, n))
    case None => if p == |line| then None else ImportSearch(line, p + 1)
  }

  /** `preg_replace` of the import pattern by its capture: the text before
      the directive and the quoted name; the line itself when nothing
      matches. */
  function ImportName(line: string): string {
    match ImportSearch(line, 0)
    case Some(f) => line[..f.at] + f.name
    case None => line
  }

  /** Largest `j` with `1 <= j < k` and `s[j] == '.'`, or 0 when there is
      none. */
  function LastDot(s: string, k: nat): (j: nat)
    requires k <= |s|
    ensures j < k || j == 0
    ensures j > 0 ==> s[j] == '.'
    ensures forall m :: j < m < k && m >= 1 ==> s[m] != '.'
  {
    if k <= 1 then 0 else if s[k - 1] == '.' then k - 1 else LastDot(s, k - 1)
  }

  /** The name has a dot after its first character. */
  predicate HasExtension(name: string) {
    exists j :: 1 <= j < |name| && name[j] == '.'
  }

  /** A file name and its extension. */
  datatype FileName = FileName(base: string, ext: string)

  /** `~^(.+)(\..*)$~`: the extension starts at the last dot that is not
      the first character; without one the extension is `.styl`. */
  function SplitExtension(name: string): (f: FileName)
    ensures HasExtension(name) ==> && f.base + f.ext == name && f.base != ""
                                   && |f.ext| > 0 && f.ext[0] == '.' && '.' !in f.ext[1..]
    ensures !HasExtension(name) ==> f == FileName(name, ".styl")
  {
    var d := LastDot(name, |name|);
    if d > 0 then FileName(name[..d], name[d..]) else FileName(name, ".styl")
  }

  /** The directory imports are read from: the import directory when one is
      set (PHP truthiness), the read directory otherwise. */
  function ImportDir(st: Stylus): string {
    if Truthy(st.importDir) then st.importDir else st.readDir
  }

  /** The path an import line reads: the import directory, a slash and the
      imported name, with `.styl` appended when the name has no extension. */
  function ImportPath(st: Stylus, line: string): (path: string)
    ensures HasExtension(ImportName(line)) ==> path == ImportDir(st) + "/" + ImportName(line)
    ensures !HasExtension(ImportName(line)) ==> path == ImportDir(st) + "/" + ImportName(line) + ".styl"
  {
    var f := SplitExtension(ImportName(line));
    ImportDir(st) + "/" + f.base + f.ext
  }

  /** `import($lines, $i)`: the directive is removed and the imported lines
      are put in front of all the others; `render` then goes on at the same
      index. A missing file fails to open; an empty or "0" file fails to
      read. */
  function Import(st: Stylus, lines: seq<string>, i: nat, files: map<string, string>): (r: Result<seq<string>>)
    requires i < |lines|
    ensures var path := ImportPath(st, lines[i]);
            r.Ok? <==> path in files && Truthy(files[path])
    ensures r.Ok? ==> var imported := Preprocess(files[ImportPath(st, lines[i])]);
              && |r.value| == |imported| + |lines| - 1
              && r.value[..|imported|] == imported
              && r.value[|imported|..] == lines[..i] + lines[i + 1..]
  {
    var path := ImportPath(st, lines[i]);
    if path !in files then Fail(CouldNotOpen(path))
    else if !Truthy(files[path]) then Fail(CouldNotRead(path))
    else
      var imported := Preprocess(files[path]);
      var r := imported + (lines[..i] + lines[i + 1..]);
      assert r[|imported|..] == lines[..i] + lines[i + 1..];
      Ok(r)
  }

  /** The `for` loop of `render` from line `i`. */
  function RenderFrom(st: Stylus, lines: seq<string>, i: nat, files: map<string, string>,
                      calls: nat, imports: nat): (r: Result<Stylus>)
    ensures r.Ok? ==> r.value.readDir == st.readDir && r.value.importDir == st.importDir
    ensures r.Ok? ==> r.value.file == st.file
    ensures r.Ok? ==> |r.value.blocks| >= |st.blocks| && r.value.blocks[..|st.blocks|] == st.blocks
    decreases imports, |lines| - i
  {
    if i >= |lines| then Ok(st)
    else
      var line := lines[i];
      if IsFunctionDeclaration(line) then
        var d :- AddFunction(lines, i);
        RenderFrom(st.(functions := st.functions[d.name := d.def]), lines, d.cursor + 1, files, calls, imports)
      else if IsVariableDeclaration(lines, i) then
        var st' :- AddVariable(st, line, calls);
        RenderFrom(st', lines, i + 1, files, calls, imports)
      else if IsBlockDeclaration(lines, i, "") then
        var b :- AddBlock(TablesOf(st), lines, i, "", [], st.blocks, calls);
        if b.cursor < i then Fail(NoProgress(i))
        else
          var st' := st.(blocks := b.blocks);
          var r := RenderFrom(st', lines, b.cursor + 1, files, calls, imports);
          assert r.Ok? ==> r.value.blocks[..|st.blocks|] == r.value.blocks[..|st'.blocks|][..|st.blocks|];
          r
      else if IsImport(line) then
        if imports == 0 then Fail(FuelExhausted)
        else
          var lines' :- Import(st, lines, i, files);
          RenderFrom(st, lines', i, files, calls, imports - 1)
      else RenderFrom(st, lines, i + 1, files, calls, imports)
  }

  /** The state `render` leaves behind: tables and output buffer cleared,
      directories kept. */
  function Reset(st: Stylus): (r: Stylus)
    ensures r.functions == map[] && r.blocks == [] && r.vars == map[] && r.file == ""
    ensures r.readDir == st.readDir && r.importDir == st.importDir
  {
    NewStylus(st.readDir, st.importDir)
  }

  /** What `render` returns: the new state and the CSS, or `None` for
      PHP's null when the output is falsy. */
  datatype Rendered = Rendered(state: Stylus, output: Option<string>)

  /** `render($input)`. Without a read directory it reports an error before
      reading anything. */
  function Render(st: Stylus, input: string, files: map<string, string>, calls: nat, imports: nat): (r: Result<Rendered>)
    ensures !Truthy(st.readDir) ==> r == Fail(NoReadDirectory)
    ensures r.Ok? ==> r.value.state == Reset(st)
    ensures r.Ok? && r.value.output.Some? ==> Truthy(r.value.output.value)
  {
    if !Truthy(st.readDir) then Fail(NoReadDirectory)
    else
      var s :- RenderFrom(st, Preprocess(input), 0, files, calls, imports);
      var file := s.file + Css(s.blocks);
      Ok(Rendered(Reset(st), if Truthy(file) then Some(file) else None))
  }
}

=== FILE: render_props.dfy ===
/** Properties of the driver: line preparation, variable assignment, the
    import file name, and what `render` returns. */
module RenderProps {
  import opened Results
  import opened Text
  import opened Indent
  import opened Classify
  import opened Substitute
  import opened Patterns
  import opened Mixins
  import opened Blocks
  import opened BlockProps
  import opened Emit
  import opened Engine

  /** Lines that are neither empty nor a lone closing brace pass through
      unchanged. */
  lemma {:induction false} CleanKeeps(parts: seq<string>)
    requires forall k :: 0 <= k < |parts| ==> parts[k] != "" && !IsClosingBrace(parts[k])
    ensures Clean(parts) == parts
  {
    if |parts| > 0 {
      CleanKeeps(parts[1..]);
      assert [parts[0]] + parts[1..] == parts;
    }
  }

  /** Cleaning twice is cleaning once. */
  lemma CleanIdempotent(parts: seq<string>)
    ensures Clean(Clean(parts)) == Clean(parts)
  {
    CleanKeeps(Clean(parts));
  }

  /** An empty line or a lone closing brace is dropped. */
  lemma CleanDrops(x: string)
    requires x == "" || IsClosingBrace(x)
    ensures Clean([x]) == []
  {
  }

  /** Cleaning works line by line: the lines of two parts are cleaned
      separately and stay in order. */
  lemma {:induction false} CleanAppend(a: seq<string>, b: seq<string>)
    ensures Clean(a + b) == Clean(a) + Clean(b)
  {
    if a == [] {
      assert a + b == b;
    } else {
      assert (a + b)[0] == a[0];
      assert (a + b)[1..] == a[1..] + b;
      CleanAppend(a[1..], b);
    }
  }

  /** A later assignment to the same name wins. */
  lemma AssignOverwrites(st: Stylus, name: string, a: string, b: string)
    ensures Assign(Assign(st, name, a), name, b) == Assign(st, name, b)
  {
  }

  /** Assignments to different names commute. */
  lemma AssignCommutes(st: Stylus, m: string, n: string, a: string, b: string)
    requires m != n
    ensures Assign(Assign(st, m, a), n, b) == Assign(Assign(st, n, b), m, a)
  {
    assert st.vars[m := a][n := b] == st.vars[n := b][m := a];
  }

  /** A variable line `name = value`, with no bound variable in the value
      and a name that is no mixin, binds `name` to `value`: `parseLine`
      writes the line `name: = value;` and the strip keeps what follows the
      `=`. */
  lemma VariableLineBinds(st: Stylus, n: string, v: string, calls: nat)
    requires n != "" && (forall k :: 0 <= k < |n| ==> IsNameChar(n[k])) && n !in st.functions
    requires v != "" && !IsSpace(v[0]) && ';' !in v
    requires InsertVariables(st.vars, "= " + v) == "= " + v
    ensures AddVariable(st, n + " = " + v, calls) == Ok(Assign(st, n, v))
  {
    VariableNameOf(n, v);
    AssignmentSplit(n, v);
    PlainDeclaration(TablesOf(st), n + " = " + v, calls, n, "= " + v, n + ": " + ("= " + v) + ";");
    StripAssignmentOf(n, v);
  }

  /** The name run of a name followed by a non-name character is the name. */
  lemma {:induction false} NameRunOf(n: string, x: string)
    requires (forall k :: 0 <= k < |n| ==> IsNameChar(n[k])) && x != "" && !IsNameChar(x[0])
    ensures NameRun(n + x) == |n|
  {
    if n == [] {
      assert n + x == x;
    } else {
      assert (n + x)[1..] == n[1..] + x;
      NameRunOf(n[1..], x);
    }
  }

  /** The variable pattern captures the name of `name = value`. */
  lemma VariableNameOf(n: string, v: string)
    requires n != "" && (forall k :: 0 <= k < |n| ==> IsNameChar(n[k]))
    requires v != "" && ';' !in v
    ensures VariableName(n + " = " + v) == Some(n)
  {
    var line := n + " = " + v;
    NameRunOf(n, " = " + v);
    assert line[..|n|] == n;
    var rest := line[|n|..];
    assert rest == " = " + v;
    assert rest[1..] == "= " + v;
    assert SpaceRun(rest) == 1;
    var value := rest[2..];
    assert value == " " + v;
    FirstOfUnique(value, {';'}, |value|);
  }

  /** The declaration pattern splits `name = value` into the name and
      `= value`. */
  lemma AssignmentSplit(n: string, v: string)
    requires n != "" && (forall k :: 0 <= k < |n| ==> IsNameChar(n[k]))
    requires v != "" && ';' !in v
    ensures DeclarationSplit(n + " = " + v) == Some(Split(n, "= " + v))
  {
    var line := n + " = " + v;
    AssignmentName(n, v);
    var w := line[|n|..];
    assert w == " = " + v;
    AssignmentGap(v);
    var r := w[1..];
    assert r == "= " + v;
    AssignmentArgs(r);
    GapThenArgs(line, |n|);
    assert line[..|n|] == n;
  }

  /** The name of `name = value` is read up to the space. */
  lemma AssignmentName(n: string, v: string)
    requires n != "" && (forall k :: 0 <= k < |n| ==> IsNameChar(n[k]))
    ensures var line := n + " = " + v;
            && line[SpaceRun(line)..] == line && FirstOf(line, NameStops) == |n|
  {
    var line := n + " = " + v;
    assert !IsSpace(line[0]) by {
      assert line[0] == n[0];
    }
    assert line[0..] == line;
    assert forall k :: 0 <= k < |n| ==> line[k] == n[k];
    FirstOfUnique(line, NameStops, |n|);
  }

  /** With the greedy name `t[..n]`, a one-character gap and arguments that
      run to the end without a `;`, the declaration pattern matches. */
  lemma GapThenArgs(t: string, n: nat)
    requires 0 < n <= |t| && FirstOf(t, NameStops) == n
    requires GapLength(Declaration, t[n..]) == 1
    requires t[n..][1..] != "" && FirstOf(t[n..][1..], {';'}) == |t[n..][1..]|
    requires Tail(Declaration, t[n..][1..][|t[n..][1..]|..])
    ensures MatchPattern(Declaration, t) == Some(Split(t[..n], t[n..][1..]))
  {
    var r := t[n..][1..];
    assert r[..|r|] == r;
    assert MatchWithName(Declaration, t, n, n) == Some(Split(t[..n], r));
  }

  /** The gap of ` = value` is the one space before the `=`. */
  lemma AssignmentGap(v: string)
    ensures GapLength(Declaration, " = " + v) == 1
  {
    var w := " = " + v;
    assert w[1..] == "= " + v;
    assert SpaceRun(w[1..]) == 0;
    assert SpaceRun(w) == 1;
  }

  /** The arguments `= value` run to the end, which the tail accepts. */
  lemma AssignmentArgs(r: string)
    requires r != "" && ';' !in r
    ensures FirstOf(r, {';'}) == |r| && r[..|r|] == r && Tail(Declaration, r[|r|..])
  {
    FirstOfUnique(r, {';'}, |r|);
    assert r[|r|..] == "";
  }

  /** The strip of `addVariable` turns `name: = value;` back into `value`. */
  lemma StripAssignmentOf(n: string, v: string)
    requires forall k :: 0 <= k < |n| ==> IsNameChar(n[k])
    requires v != "" && !IsSpace(v[0]) && ';' !in v
    ensures StripAssignment(n + ": " + ("= " + v) + ";") == v
  {
    var x := n + ": " + ("= " + v) + ";";
    assert forall k :: 0 <= k < |n| ==> x[k] == n[k];
    assert x[|n|] == ':' && x[|n| + 1] == ' ' && x[|n| + 2] == '=';
    FirstOfUnique(x, {'='}, |n| + 2);
    var after := x[|n| + 3..];
    assert after == " " + v + ";";
    assert after[1..] == v + ";";
    assert SpaceRun(after) == 1;
    RemoveFinal(v, ';');
  }

  /** Removing a character that occurs only at the end drops that end. */
  lemma {:induction false} RemoveFinal(s: string, c: char)
    requires c !in s
    ensures RemoveChar(s + [c], c) == s
  {
    if s == [] {
      assert RemoveChar([c][1..], c) == "";
    } else {
      assert (s + [c])[1..] == s[1..] + [c];
      RemoveFinal(s[1..], c);
    }
  }

  /** An `@import` directive with a quoted name imports that name. */
  lemma ImportNameOfDirective(name: string, open: char, close: char, rest: string)
    requires name != "" && '\'' !in name && '"' !in name
    requires IsQuote(open) && IsQuote(close)
    ensures ImportName("@import " + [open] + name + [close] + rest) == name
  {
    var line := "@import " + [open] + name + [close] + rest;
    assert line[..7] == "@import";
    assert OccursAt(line, "@import", 0);
    assert line[7..][..1] == " " && line[7..][1] == open;
    assert SpaceRun(line[7..]) == 1;
    var after := line[9..];
    assert after[..|name|] == name;
    FirstOfUnique(after, {'\'', '"'}, |name|);
    assert line[9..9 + |name|] == name;
    assert ImportMatchAt(line, 0) == Some(name);
    assert line[..0] + name == name;
  }

  /** A name and an extension come apart where they were joined. */
  lemma SplitExtensionJoin(base: string, ext: string)
    requires base != "" && |ext| > 0 && ext[0] == '.' && '.' !in ext[1..]
    ensures SplitExtension(base + ext) == FileName(base, ext)
  {
    var name := base + ext;
    assert name[|base|] == '.';
    assert HasExtension(name);
  }

  /** A name without a dot after its first character gets the `.styl`
      extension. */
  lemma DefaultExtension(name: string)
    requires forall j :: 1 <= j < |name| ==> name[j] != '.'
    ensures SplitExtension(name) == FileName(name, ".styl")
  {
  }

  /** On a fresh engine the output is the CSS of the blocks read, and there
      is no output exactly when no block has a declaration. */
  lemma RenderOutput(readDir: string, importDir: string, input: string, files: map<string, string>,
                     calls: nat, imports: nat)
    requires Render(NewStylus(readDir, importDir), input, files, calls, imports).Ok?
    ensures var st := NewStylus(readDir, importDir);
            var s := RenderFrom(st, Preprocess(input), 0, files, calls, imports);
            && s.Ok?
            && var out := Render(st, input, files, calls, imports).value.output;
               && (out.None? <==> forall k :: 0 <= k < |s.value.blocks| ==> s.value.blocks[k].contents == [])
               && (out.Some? ==> out.value == Css(s.value.blocks))
  {
    var st := NewStylus(readDir, importDir);
    var s := RenderFrom(st, Preprocess(input), 0, files, calls, imports).value;
    CssEmptyIff(s.blocks);
    if Css(s.blocks) != "" {
      CssEndsWithBrace(s.blocks);
    }
    assert s.file + Css(s.blocks) == Css(s.blocks);
  }

  /** An import line that is no block declaration is handled by the import
      branch of `render`: without import fuel left the model fails, a file
      that cannot be opened or read fails, and otherwise the loop goes on at
      the same index over the lines `import` returns. */
  lemma ImportResumes(st: Stylus, lines: seq<string>, i: nat, files: map<string, string>,
                      calls: nat, imports: nat)
    requires i < |lines| && IsImport(lines[i]) && !IsBlockDeclaration(lines, i, "")
    ensures imports == 0 ==> RenderFrom(st, lines, i, files, calls, imports) == Fail(FuelExhausted)
    ensures imports > 0 && Import(st, lines, i, files).Fail? ==>
              RenderFrom(st, lines, i, files, calls, imports) == Fail(Import(st, lines, i, files).error)
    ensures imports > 0 && Import(st, lines, i, files).Ok? ==>
              RenderFrom(st, lines, i, files, calls, imports)
              == RenderFrom(st, Import(st, lines, i, files).value, i, files, calls, imports - 1)
  {
    ImportNotDeclaration(lines, i);
  }

  /** An import on the second line: the imported line `x` goes to index 0
      and `a` moves to index 1, where the loop goes on, so `x` is never
      classified and `a` is read a second time. */
  lemma ImportSkipsImported(st: Stylus, files: map<string, string>, calls: nat, imports: nat)
    requires st.importDir == "d" && files == map["d/f.styl" := "x"] && imports > 0
    ensures RenderFrom(st, ["a", "@import 'f'"], 1, files, calls, imports)
            == RenderFrom(st, ["x", "a"], 1, files, calls, imports - 1)
  {
    ImportLineFacts();
    ImportResumes(st, ["a", "@import 'f'"], 1, files, calls, imports);
    ExampleImport(st, files);
  }

  /** `import` on the example: the file `d/f.styl` holds the one line `x`. */
  lemma ExampleImport(st: Stylus, files: map<string, string>)
    requires st.importDir == "d" && files == map["d/f.styl" := "x"]
    ensures Import(st, ["a", "@import 'f'"], 1, files) == Ok(["x", "a"])
  {
    var lines := ["a", "@import 'f'"];
    ImportLineName();
    DefaultExtension("f");
    assert ImportDir(st) == "d";
    assert ImportPath(st, lines[1]) == "d/f.styl";
    assert "d/f.styl" in files && Truthy(files["d/f.styl"]);
    PreprocessOneLine();
    assert lines[..1] + lines[2..] == ["a"];
    assert Import(st, lines, 1, files).value == ["x"] + ["a"];
    assert ["x"] + ["a"] == ["x", "a"];
    assert Import(st, lines, 1, files) == Ok(["x", "a"]);
  }

  /** The line `@import 'f'` names `f`, which gets the default extension,
      and, as the last line, it is no block declaration. */
  lemma ImportLineFacts()
    ensures IsImport("@import 'f'") && ImportName("@import 'f'") == "f"
    ensures SplitExtension("f") == FileName("f", ".styl")
    ensures !IsBlockDeclaration(["a", "@import 'f'"], 1, "")
  {
    ImportLineName();
    DefaultExtension("f");
    ImportLineNotBlock();
  }

  lemma ImportLineName()
    ensures IsImport("@import 'f'") && ImportName("@import 'f'") == "f"
  {
    var line := "@import 'f'";
    assert line == "@import " + ['\''] + "f" + ['\''] + "";
    ImportNameOfDirective("f", '\'', '\'', "");
    assert line[..7] == "@import";
  }

  lemma ImportLineNotBlock()
    ensures !IsBlockDeclaration(["a", "@import 'f'"], 1, "")
  {
    var line := "@import 'f'";
    assert !IsSelectorStart(line[0]) && !IsSelectorChar(line[0]);
    assert line[|line| - 1] == '\'';
    assert !ListItem(line, "") && !ListLine(line, "");
  }

  lemma PreprocessOneLine()
    ensures Preprocess("x") == ["x"]
  {
    assert FirstOf("x", {'\n', '\r'}) == 1;
    assert SplitLines("x") == ["x"];
  }

  /** How the line `  ,` is classified, at the top level and at its own
      indent. */
  lemma IndentedCommaClassified()
    ensures GetIndent("  ,") == "  "
    ensures !IsFunctionDeclaration("  ,") && !IsVariableDeclaration(["  ,"], 0)
    ensures IsBlockDeclaration(["  ,"], 0, "")
    ensures !IsBlockDeclaration(["  ,"], 0, "  ") && !IsProperty("  ,")
  {
    CommaIndent();
    CommaTopLevel();
    CommaAtOwnIndent();
  }

  lemma CommaIndent()
    ensures SpaceRun("  ,") == 2 && GetIndent("  ,") == "  "
  {
    var line := "  ,";
    assert SpaceRun(line[2..]) == 0;
    assert line[1..][1..] == line[2..];
  }

  lemma CommaTopLevel()
    ensures !IsFunctionDeclaration("  ,") && !IsVariableDeclaration(["  ,"], 0)
    ensures IsBlockDeclaration(["  ,"], 0, "")
  {
    var line := "  ,";
    CommaIndent();
    assert NameRun(line) == 0;
    assert ListLine(line, "");
  }

  lemma CommaAtOwnIndent()
    ensures !IsBlockDeclaration(["  ,"], 0, "  ") && !IsProperty("  ,")
  {
    var line := "  ,";
    CommaIndent();
    assert line[0] == ' ' && !IsSelectorStart(line[0]);
    assert !PlainSelector(line);
    assert line[2..] == ",";
    assert !ListItem(line, "  ");
    assert !ListLine(line, "  ");
    assert !StartsWith(line, "  &");
  }

  /** A lone indented comma at the top level passes the selector-list test
      of `isBlockDeclaration`, but the block reader consumes nothing: its
      header loop wants indent "" and its body loop finds neither a block
      nor a property. The PHP cursor goes back to the same line forever. */
  lemma IndentedCommaMakesNoProgress(st: Stylus, files: map<string, string>, calls: nat, imports: nat)
    ensures AddBlock(TablesOf(st), ["  ,"], 0, "", [], st.blocks, calls) == Ok(Built(st.blocks + [Placeholder], -1))
    ensures RenderFrom(st, ["  ,"], 0, files, calls, imports) == Fail(NoProgress(0))
  {
    IndentedCommaClassified();
    var lines := ["  ,"];
    assert HeaderEnd(lines, 0, "") == 0;
    assert HeaderFrom(lines, 0, "") == HeaderRun([], 0);
    var blocks := st.blocks + [Placeholder];
    assert Body(TablesOf(st), lines, 0, "  ", [], blocks, [], calls) == Ok(BodyRun(blocks, [], 0));
    assert blocks[|st.blocks| := Block([], [])] == blocks;
  }

  lemma ExampleSplit()
    ensures SplitLines("a\n b c") == ["a", " b c"]
  {
    var text := "a\n b c";
    FirstOfUnique(text, {'\n', '\r'}, 1);
    var rest := text[2..];
    assert rest == " b c";
    FirstOfUnique(rest, {'\n', '\r'}, |rest|);
    assert SplitLines(rest) == [rest];
    assert text[..1] == "a";
  }

  lemma ExampleIndent()
    ensures SpaceRun(" b c") == 1 && GetIndent(" b c") == " "
  {
    var line := " b c";
    assert SpaceRun(line[1..]) == 0;
  }

  /** The two lines of the smallest style sheet. */
  lemma ExampleLines()
    ensures Preprocess("a\n b c") == ["a", " b c"]
  {
    ExampleSplit();
    ExampleIndent();
    assert SpaceRun("a") == 0;
    assert !IsClosingBrace("a") && !IsClosingBrace(" b c");
    CleanKeeps(["a", " b c"]);
  }

  lemma ExampleMatch()
    ensures MatchPattern(Declaration, "b c") == Some(Split("b", "c"))
  {
    var x := "b c";
    FirstOfUnique(x, NameStops, 1);
    var w := x[1..];
    assert w == " c";
    assert SpaceRun(w[1..]) == 0;
    assert SpaceRun(w) == 1;
    assert GapLength(Declaration, w) == 1;
    var r := w[1..];
    FirstOfUnique(r, {';'}, 1);
    assert r[..1] == "c" && r[1..] == "";
    assert x[..1] == "b";
    assert MatchWithName(Declaration, x, 1, 1) == Some(Split("b", "c"));
    assert SearchName(Declaration, x, 1, 1) == Some(Split("b", "c"));
  }

  /** The declaration pattern takes ` b c` apart into `b` and `c`. */
  lemma ExampleSplitLine()
    ensures DeclarationSplit(" b c") == Some(Split("b", "c"))
  {
    ExampleIndent();
    assert " b c"[1..] == "b c";
    ExampleMatch();
  }

  /** `b c` in a block body is the declaration `b: c;`. */
  lemma ExampleDeclaration(t: Tables, calls: nat)
    requires t.functions == map[] && t.vars == map[]
    ensures ParseLine(t, " b c", calls) == Ok("b: c;")
  {
    ExampleSplitLine();
    ExampleValue(t.vars);
    DeclarationText();
    PlainDeclaration(t, " b c", calls, "b", "c", "b: c;");
  }

  /** The value `c` holds no bound variable. */
  lemma ExampleValue(vars: Vars)
    requires vars == map[]
    ensures InsertVariables(vars, "c") == "c"
  {
    SingleToken(vars, "c");
  }

  /** The declaration text, assembled. */
  lemma DeclarationText()
    ensures "b: c;" == "b" + ": " + "c" + ";"
  {
  }

  /** A line split into a name that is no mixin and a value without bound
      variables is written `name: value;`. */
  lemma PlainDeclaration(t: Tables, line: string, fuel: nat, name: string, value: string, text: string)
    requires DeclarationSplit(line) == Some(Split(name, value)) && name !in t.functions
    requires InsertVariables(t.vars, value) == value
    requires text == name + ": " + value + ";"
    ensures ParseLine(t, line, fuel) == Ok(text)
  {
  }

  lemma ExampleHeader()
    ensures HeaderFrom(["a", " b c"], 0, "") == HeaderRun(["a"], 1)
  {
    ExampleIndent();
    HeaderNamesSingle("a");
    OneLineHeader(["a", " b c"]);
  }

  /** A header of one top-level line, followed by an indented line. */
  lemma OneLineHeader(lines: seq<string>)
    requires |lines| == 2 && GetIndent(lines[0]) == "" && GetIndent(lines[1]) != ""
    ensures HeaderFrom(lines, 0, "") == HeaderRun(HeaderNames(lines[0]), 1)
  {
    assert HeaderEnd(lines, 1, "") == 1;
    assert HeaderEnd(lines, 0, "") == 1;
    assert NamesOf(lines, 1, 1) == [];
    assert NamesOf(lines, 0, 1) == HeaderNames(lines[0]) + [];
  }

  lemma ExampleTopLevel()
    ensures !IsFunctionDeclaration("a") && !IsVariableDeclaration(["a", " b c"], 0)
    ensures IsBlockDeclaration(["a", " b c"], 0, "")
  {
    assert NameRun("a") == 1;
    assert ListItem("a", "");
  }

  lemma ExampleProperty()
    ensures !IsBlockDeclaration(["a", " b c"], 1, " ") && IsProperty(" b c")
  {
    var line := " b c";
    ExampleIndent();
    assert line[1..][1] == ' ';
    assert !ListItem(line, " ");
    assert !PlainSelector(line);
    assert SpacedAt(line, 1);
  }

  /** How the two example lines are classified. */
  lemma ExampleClassified()
    ensures GetIndent("a") == "" && GetIndent(" b c") == " "
    ensures HeaderFrom(["a", " b c"], 0, "") == HeaderRun(["a"], 1)
    ensures !IsFunctionDeclaration("a") && !IsVariableDeclaration(["a", " b c"], 0)
    ensures IsBlockDeclaration(["a", " b c"], 0, "")
    ensures !IsBlockDeclaration(["a", " b c"], 1, " ") && IsProperty(" b c")
  {
    ExampleIndent();
    ExampleHeader();
    ExampleTopLevel();
    ExampleProperty();
  }

  /** The body of block `a`: one declaration. */
  lemma ExampleBody(t: Tables, start: seq<Block>, calls: nat)
    requires t.functions == map[] && t.vars == map[]
    ensures Body(t, ["a", " b c"], 1, " ", ["a"], start, [], calls) == Ok(BodyRun(start, ["b: c;"], 2))
  {
    var lines := ["a", " b c"];
    ExampleBodyLine();
    ExampleDeclaration(t, calls);
    LastProperty(t, lines, 1, " ", ["a"], start, calls, "b: c;");
  }

  /** The second line is a property at the body's indent. */
  lemma ExampleBodyLine()
    ensures var lines := ["a", " b c"];
            && 1 + 1 == |lines| && lines[1] == " b c" && GetIndent(lines[1]) == " "
            && !IsBlockDeclaration(lines, 1, " ") && IsProperty(lines[1])
  {
    ExampleIndent();
    ExampleProperty();
  }

  /** A body whose one line is a property at the body's indent holds that
      line's declaration alone and ends after it. */
  lemma LastProperty(t: Tables, lines: seq<string>, j: nat, indent: string, names: seq<string>,
                     blocks: seq<Block>, fuel: nat, p: string)
    requires j + 1 == |lines| && GetIndent(lines[j]) == indent
    requires !IsBlockDeclaration(lines, j, indent) && IsProperty(lines[j])
    requires ParseLine(t, lines[j], fuel) == Ok(p)
    ensures Body(t, lines, j, indent, names, blocks, [], fuel) == Ok(BodyRun(blocks, [p], j + 1))
  {
    assert [] + [p] == [p];
    assert Body(t, lines, j + 1, indent, names, blocks, [p], fuel) == Ok(BodyRun(blocks, [p], j + 1));
  }

  /** The block `a` with one declaration. */
  lemma ExampleBlock(t: Tables, blocks: seq<Block>, calls: nat)
    requires t.functions == map[] && t.vars == map[]
    ensures AddBlock(t, ["a", " b c"], 0, "", [], blocks, calls)
            == Ok(Built(blocks + [Block(["a"], ["b: c;"])], 1))
  {
    ExampleIndent();
    ExampleHeader();
    assert BlockNames([], ["a"]) == ["a"];
    ExampleBody(t, blocks + [Placeholder], calls);
    OneBlock(t, ["a", " b c"], blocks, calls, ["a"], ["a"], ["b: c;"]);
  }

  /** A top-level block whose header is the first line and whose body is
      the second. */
  lemma OneBlock(t: Tables, lines: seq<string>, blocks: seq<Block>, fuel: nat,
                 header: seq<string>, names: seq<string>, contents: seq<string>)
    requires |lines| == 2 && HeaderFrom(lines, 0, "") == HeaderRun(header, 1)
    requires BlockNames([], header) == names
    requires Body(t, lines, 1, GetIndent(lines[1]), names, blocks + [Placeholder], [], fuel)
             == Ok(BodyRun(blocks + [Placeholder], contents, 2))
    ensures AddBlock(t, lines, 0, "", [], blocks, fuel) == Ok(Built(blocks + [Block(names, contents)], 1))
  {
    var start := blocks + [Placeholder];
    assert BodyIndent(lines, 1) == GetIndent(lines[1]);
    AddBlockParts(t, lines, 0, "", [], blocks, fuel, HeaderRun(header, 1), BodyRun(start, contents, 2));
    assert start[|blocks| := Block(names, contents)] == blocks + [Block(names, contents)];
  }

  /** The rule of block `a`. */
  lemma ExampleCss()
    ensures Css([Block(["a"], ["b: c;"])]) == "a {\n\tb: c;\n}\n"
  {
    var b := Block(["a"], ["b: c;"]);
    assert [b][1..] == [];
    assert Css([b]) == Rule(b) + "";
    assert Join(", ", ["a"]) == "a";
    assert Declarations(b.contents) == "\t" + "b: c;";
    assert Rule(b) == "a" + " {\n" + "\tb: c;" + "\n}\n";
  }

  /** The render loop over the two lines builds block `a` and stops. */
  lemma ExampleRenderFrom(st: Stylus, files: map<string, string>, calls: nat, imports: nat)
    requires st.functions == map[] && st.vars == map[] && st.blocks == []
    ensures RenderFrom(st, ["a", " b c"], 0, files, calls, imports)
            == Ok(st.(blocks := [Block(["a"], ["b: c;"])]))
  {
    var lines := ["a", " b c"];
    ExampleTopLevel();
    ExampleBlock(TablesOf(st), [], calls);
    var blocks := [Block(["a"], ["b: c;"])];
    assert [] + blocks == blocks;
    var st' := st.(blocks := blocks);
    assert RenderFrom(st', lines, 2, files, calls, imports) == Ok(st');
  }

  /** A selector line and an indented property render as one rule. */
  lemma ExampleRender(readDir: string, files: map<string, string>, calls: nat, imports: nat)
    requires Truthy(readDir)
    ensures Render(NewStylus(readDir, ""), "a\n b c", files, calls, imports)
            == Ok(Rendered(NewStylus(readDir, ""), Some("a {\n\tb: c;\n}\n")))
  {
    var st := NewStylus(readDir, "");
    ExampleLines();
    ExampleRenderFrom(st, files, calls, imports);
    var st' := st.(blocks := [Block(["a"], ["b: c;"])]);
    ExampleCss();
    var css := "a {\n\tb: c;\n}\n";
    assert st'.file + Css(st'.blocks) == css;
    assert Truthy(css);
    assert Reset(st) == st;
  }
}

=== FILE: results.dfy ===
/** Failure-compatible result type shared by every stage of the compiler.

    The PHP class reports fatal problems through `StylusException::report`
    and silently reads undefined array indices in a few places; the model
    turns both into a `Fail` value so that every operation stays total. */
module Results {

  /** Why a render did not produce its normal result. */
  datatype Error =
    | UndefinedIndex(where: string)   // PHP would read a missing array index here
    | CouldNotOpen(path: string)      // `fopen` failed during `@import`
    | CouldNotRead(path: string)      // `fread` returned a falsy string during `@import`
    | NoReadDirectory                 // `render` was called without a read directory
    | NoProgress(line: nat)           // PHP's `render` loop would revisit this line forever
    | FuelExhausted                   // the delegation or import bound of the model was reached

  datatype Option<+T> = None | Some(value: T) {

    /** The value, or `default` for `None`. */
    function GetOr(default: T): T {
      match this
      case Some(v) => v
      case None => default
    }
  }

  datatype Result<+T> = Ok(value: T) | Fail(error: Error) {

    predicate IsFailure() {
      Fail?
    }

    function PropagateFailure<U>(): Result<U>
      requires Fail?
    {
      Fail(error)
    }

    function Extract(): T
      requires Ok?
    {
      value
    }
  }
}

=== FILE: substitute.dfy ===
/** The substitution engine, `insertVariables`: replaces variable references
    in an argument string (or in the value part of a line) by the values
    bound in the variable table. */
module Substitute {
  import opened Results
  import opened Text

  type Vars = map<string, string>

  /** PCRE `\b` at position `e` of `s`. */
  predicate Boundary(s: string, e: nat)
    requires e <= |s|
  {
    (e > 0 && IsWordChar(s[e - 1])) != (e < |s| && IsWordChar(s[e]))
  }

  /** The trailing `(\$|\b)` of the token pattern, tried at the ends `e`,
      `e - 1`, ..., `lo` of the greedy name run (PCRE backtracking order):
      a `$` at the end is consumed, a word boundary is not. */
  function TryEnds(s: string, lo: nat, e: nat): (r: Option<nat>)
    requires 0 < lo <= e <= |s|
    ensures r.Some? ==> lo <= r.value <= e + 1 && r.value <= |s|
    decreases e
  {
    if e < |s| && s[e] == '$' then Some(e + 1)
    else if Boundary(s, e) then Some(e)
    else if e == lo then None
    else TryEnds(s, lo, e - 1)
  }

  /** The end of the match of `~(\$|\b)[\$a-zA-Z0-9_-]+(\$|\b)~` that starts
      at `p`, if one does: first with a leading `$` consumed, then with a
      word boundary at `p`. */
  function TokenMatchAt(s: string, p: nat): (r: Option<nat>)
    requires p < |s|
    ensures r.Some? ==> p < r.value <= |s|
  {
    var viaDollar :=
      if s[p] == '$' && NameRun(s[p + 1..]) > 0
      then TryEnds(s, p + 2, p + 1 + NameRun(s[p + 1..]))
      else None;
    if viaDollar.Some? then viaDollar
    else if Boundary(s, p) && NameRun(s[p..]) > 0 then TryEnds(s, p + 1, p + NameRun(s[p..]))
    else None
  }

  /** `preg_match_all` of the token pattern from position `p`: the list of
      matched tokens, left to right, without overlap. */
  function Tokens(s: string, p: nat): (toks: seq<string>)
    requires p <= |s|
    ensures forall k :: 0 <= k < |toks| ==> |toks[k]| > 0
    decreases |s| - p
  {
    if p == |s| then []
    else match TokenMatchAt(s, p)
      case Some(e) => [s[p..e]] + Tokens(s, e)
      case None => Tokens(s, p + 1)
  }

  /** `preg_replace` of `~((?<=^|[^NAME])TOK(?=$|[^NAME]))|(\{TOK\})~` by `v`,
      scanning `x` from position `i`: a whole name run equal to `tok`, or
      `tok` in braces, is replaced. The value is inserted literally. */
  function ReplaceFrom(x: string, tok: string, v: string, i: nat): (r: string)
    requires |tok| > 0 && i <= |x|
    decreases |x| - i
  {
    if i == |x| then ""
    else if && OccursAt(x, tok, i)
            && (i == 0 || !IsNameChar(x[i - 1]))
            && (i + |tok| == |x| || !IsNameChar(x[i + |tok|]))
    then v + ReplaceFrom(x, tok, v, i + |tok|)
    else if OccursAt(x, "{" + tok + "}", i) then v + ReplaceFrom(x, tok, v, i + |tok| + 2)
    else [x[i]] + ReplaceFrom(x, tok, v, i + 1)
  }

  function ReplaceToken(x: string, tok: string, v: string): string
    requires |tok| > 0
  {
    ReplaceFrom(x, tok, v, 0)
  }

  /** The `foreach` over the matched tokens: each bound token is replaced in
      the text as it stands after the previous replacements. */
  function ReplaceTokens(vars: Vars, toks: seq<string>, x: string): string
    requires forall k :: 0 <= k < |toks| ==> |toks[k]| > 0
  {
    if |toks| == 0 then x
    else
      var x' := if toks[0] in vars then ReplaceToken(x, toks[0], vars[toks[0]]) else x;
      ReplaceTokens(vars, toks[1..], x')
  }

  /** `~[,\s]~`: the argument holds several tokens. */
  predicate IsMultiToken(args: string) {
    exists k :: 0 <= k < |args| && (args[k] == ',' || IsSpace(args[k]))
  }

  /** `insertVariables($args)`. */
  function InsertVariables(vars: Vars, args: string): string {
    if IsMultiToken(args) then ReplaceTokens(vars, Tokens(args, 0), args)
    else if args in vars then vars[args]
    else args
  }

  /** Length of the first token and the whitespace after it, the `(\S+\s+)`
      of `~^(\S+\s+)(.*)$~`; 0 when the line does not have that shape. */
  function HeadLength(line: string): (n: nat)
    ensures n <= |line|
    ensures n > 0 ==> !IsSpace(line[0]) && IsSpace(line[n - 1])
    ensures n > 0 ==> n == |line| || !IsSpace(line[n])
    ensures n > 0 ==> forall j, k :: 0 <= j <= k < n && IsSpace(line[j]) ==> IsSpace(line[k])
    ensures n == 0 <==> line == "" || IsSpace(line[0]) || forall k :: 0 <= k < |line| ==> !IsSpace(line[k])
  {
    var t := NonSpaceRun(line);
    var w := SpaceRun(line[t..]);
    if t > 0 && w > 0 then
      forall j, k | 0 <= j <= k < t + w && IsSpace(line[j]) ensures IsSpace(line[k]) {
        assert t <= j;
        assert line[k] == line[t..][..w][k - t];
      }
      t + w
    else 0
  }

  /** `insertVariables($line, true)`: the first token and its trailing
      whitespace are kept, the rest is substituted. A line without
      whitespace after its first token leaves PHP reading an undefined
      match index; the model fails there. */
  function InsertVariablesLine(vars: Vars, line: string): (r: Result<string>)
    ensures r.Ok? <==> HeadLength(line) > 0
    ensures r.Ok? ==> StartsWith(r.value, line[..HeadLength(line)])
  {
    var n := HeadLength(line);
    if n == 0 then Fail(UndefinedIndex("insertVariables: no whitespace after the first token"))
    else Ok(line[..n] + InsertVariables(vars, line[n..]))
  }

  /** A single token is replaced by its value when it is bound, and comes
      back unchanged otherwise. */
  lemma SingleToken(vars: Vars, args: string)
    requires ',' !in args && forall k :: 0 <= k < |args| ==> !IsSpace(args[k])
    ensures InsertVariables(vars, args) == (if args in vars then vars[args] else args)
  {
  }

  lemma {:induction false} ReplaceTokensUnbound(vars: Vars, toks: seq<string>, x: string)
    requires forall k :: 0 <= k < |toks| ==> |toks[k]| > 0 && toks[k] !in vars
    ensures ReplaceTokens(vars, toks, x) == x
  {
    if |toks| > 0 {
      ReplaceTokensUnbound(vars, toks[1..], x);
    }
  }

  /** When no token of the argument is bound (nor the argument itself, for a
      single token), the argument comes back unchanged. */
  lemma NoBoundToken(vars: Vars, args: string)
    requires forall k :: 0 <= k < |Tokens(args, 0)| ==> Tokens(args, 0)[k] !in vars
    requires args !in vars
    ensures InsertVariables(vars, args) == args
  {
    if IsMultiToken(args) {
      ReplaceTokensUnbound(vars, Tokens(args, 0), args);
    }
  }

  /** A text in which the token does not occur at all is left alone. */
  lemma {:induction false} ReplaceFromAbsent(x: string, tok: string, v: string, i: nat)
    requires |tok| > 0 && i <= |x|
    requires forall k :: i <= k <= |x| ==> !OccursAt(x, tok, k)
    ensures ReplaceFrom(x, tok, v, i) == x[i..]
    decreases |x| - i
  {
    if i < |x| {
      if OccursAt(x, "{" + tok + "}", i) {
        var w := x[i..i + |tok| + 2];
        assert w[1..|tok| + 1] == tok;
        assert x[i + 1..i + 1 + |tok|] == w[1..|tok| + 1];
        assert OccursAt(x, tok, i + 1);
      }
      ReplaceFromAbsent(x, tok, v, i + 1);
      assert x[i..] == [x[i]] + x[i + 1..];
    }
  }

  /** The token on its own, bare or in braces, becomes the value. */
  lemma WholeTokenReplaced(tok: string, v: string)
    requires |tok| > 0 && forall k :: 0 <= k < |tok| ==> IsNameChar(tok[k])
    ensures ReplaceToken(tok, tok, v) == v
    ensures ReplaceToken("{" + tok + "}", tok, v) == v
  {
    assert OccursAt(tok, tok, 0);
    assert ReplaceFrom(tok, tok, v, |tok|) == "";
    var braced := "{" + tok + "}";
    assert !IsNameChar(braced[0]);
    assert OccursAt(braced, braced, 0);
    assert ReplaceFrom(braced, tok, v, |tok| + 2) == "";
  }
}

=== FILE: text.dfy ===
/** Character classes and the small string operations the compiler is built
    from: PHP's `trim`, `str_replace`, `preg_split` on commas and on line
    breaks, and `implode`.

    Characters are treated as the single bytes PHP works on; the classes
    follow PCRE without the `u` flag (`\s`, `\w`). */
module Text {

  /** PCRE `\s`: space, tab, line feed, vertical tab, form feed, carriage return. */
  predicate IsSpace(c: char) {
    c == ' ' || c == '\t' || c == '\n' || c == '\r' || c == '\U{000B}' || c == '\U{000C}'
  }

  predicate IsLetter(c: char) {
    ('a' <= c <= 'z') || ('A' <= c <= 'Z')
  }

  predicate IsDigit(c: char) {
    '0' <= c <= '9'
  }

  /** PCRE `\w`, which decides where `\b` sits. */
  predicate IsWordChar(c: char) {
    IsLetter(c) || IsDigit(c) || c == '_'
  }

  /** The class `[\$a-zA-Z0-9_-]` used for variable and function names. */
  predicate IsNameChar(c: char) {
    IsWordChar(c) || c == '$' || c == '-'
  }

  /** The characters PHP's `trim` strips by default (note: no form feed). */
  predicate IsTrimChar(c: char) {
    c == ' ' || c == '\t' || c == '\n' || c == '\r' || c == '\0' || c == '\U{000B}'
  }

  predicate AllSpace(s: string) {
    forall k :: 0 <= k < |s| ==> IsSpace(s[k])
  }

  predicate StartsWith(s: string, prefix: string) {
    |prefix| <= |s| && s[..|prefix|] == prefix
  }

  /** `pat` occurs in `s` starting at index `k`. */
  predicate OccursAt(s: string, pat: string, k: nat) {
    k + |pat| <= |s| && s[k..k + |pat|] == pat
  }

  predicate Occurs(s: string, pat: string) {
    exists k :: 0 <= k <= |s| && OccursAt(s, pat, k)
  }

  /** PHP truthiness of a string: only "" and "0" are falsy. */
  predicate Truthy(s: string) {
    s != "" && s != "0"
  }

  /** Length of the longest prefix of `s` made of whitespace. */
  function SpaceRun(s: string): (n: nat)
    ensures n <= |s|
    ensures AllSpace(s[..n])
    ensures n < |s| ==> !IsSpace(s[n])
  {
    if |s| > 0 && IsSpace(s[0]) then
      var n := 1 + SpaceRun(s[1..]);
      assert s[..n] == [s[0]] + s[1..][..n - 1];
      n
    else 0
  }

  /** Length of the longest prefix of `s` made of non-whitespace. */
  function NonSpaceRun(s: string): (n: nat)
    ensures n <= |s|
    ensures forall k :: 0 <= k < n ==> !IsSpace(s[k])
    ensures n < |s| ==> IsSpace(s[n])
  {
    if |s| > 0 && !IsSpace(s[0]) then 1 + NonSpaceRun(s[1..]) else 0
  }

  /** Length of the longest prefix of `s` made of name characters. */
  function NameRun(s: string): (n: nat)
    ensures n <= |s|
    ensures forall k :: 0 <= k < n ==> IsNameChar(s[k])
    ensures n < |s| ==> !IsNameChar(s[n])
  {
    if |s| > 0 && IsNameChar(s[0]) then 1 + NameRun(s[1..]) else 0
  }

  /** Index of the first character of `s` that belongs to `stops`, or `|s|`. */
  function FirstOf(s: string, stops: set<char>): (k: nat)
    ensures k <= |s|
    ensures forall j :: 0 <= j < k ==> s[j] !in stops
    ensures k < |s| ==> s[k] in stops
  {
    if |s| == 0 || s[0] in stops then 0 else 1 + FirstOf(s[1..], stops)
  }

  /** `FirstOf` is fixed by its two defining properties. */
  lemma {:induction false} FirstOfUnique(s: string, stops: set<char>, n: nat)
    requires n <= |s|
    requires forall j :: 0 <= j < n ==> s[j] !in stops
    requires n < |s| ==> s[n] in stops
    ensures FirstOf(s, stops) == n
  {
    if n > 0 {
      FirstOfUnique(s[1..], stops, n - 1);
    }
  }

  /** `s` with the leading `IsTrimChar` characters removed. */
  function TrimLeft(s: string): (r: string)
    ensures |r| <= |s| && r == s[|s| - |r|..]
    ensures |r| > 0 ==> !IsTrimChar(r[0])
    ensures forall k :: 0 <= k < |s| - |r| ==> IsTrimChar(s[k])
  {
    if |s| > 0 && IsTrimChar(s[0]) then TrimLeft(s[1..]) else s
  }

  /** `s` with the trailing `IsTrimChar` characters removed. */
  function TrimRight(s: string): (r: string)
    ensures |r| <= |s| && r == s[..|r|]
    ensures |r| > 0 ==> !IsTrimChar(r[|r| - 1])
    ensures forall k :: |r| <= k < |s| ==> IsTrimChar(s[k])
  {
    if |s| > 0 && IsTrimChar(s[|s| - 1]) then TrimRight(s[..|s| - 1]) else s
  }

  /** Where the text that `trim` keeps starts: after the leading
      `IsTrimChar` characters. */
  function TrimStart(s: string): (a: nat)
    ensures a <= |s| && (a < |s| ==> !IsTrimChar(s[a]))
    ensures forall k :: 0 <= k < a ==> IsTrimChar(s[k])
  {
    |s| - |TrimLeft(s)|
  }

  /** PHP `trim($s)`: the text between the leading and the trailing
      `IsTrimChar` characters. */
  function Trim(s: string): (r: string)
    ensures |r| > 0 ==> !IsTrimChar(r[0]) && !IsTrimChar(r[|r| - 1])
    ensures TrimStart(s) + |r| <= |s| && r == s[TrimStart(s)..TrimStart(s) + |r|]
    ensures forall k :: TrimStart(s) + |r| <= k < |s| ==> IsTrimChar(s[k])
  {
    var l := TrimLeft(s);
    var r := TrimRight(l);
    KeepsMiddle(s, l, r, TrimStart(s));
    r
  }

  /** A prefix `r` of a suffix `l` of `s`, after which `l` holds only
      `IsTrimChar` characters, is the slice of `s` from where `l` starts. */
  lemma KeepsMiddle(s: string, l: string, r: string, a: nat)
    requires |l| <= |s| && l == s[|s| - |l|..] && a == |s| - |l|
    requires |r| <= |l| && r == l[..|r|]
    requires forall k :: |r| <= k < |l| ==> IsTrimChar(l[k])
    ensures a + |r| <= |s| && r == s[a..a + |r|]
    ensures forall k :: a + |r| <= k < |s| ==> IsTrimChar(s[k])
  {
    forall k | a + |r| <= k < |s|
      ensures IsTrimChar(s[k])
    {
      assert s[k] == l[k - a];
    }
  }

  /** PHP `implode($sep, $parts)`. */
  function Join(sep: string, parts: seq<string>): (r: string)
    ensures |parts| == 1 ==> r == parts[0]
  {
    if |parts| == 0 then ""
    else if |parts| == 1 then parts[0]
    else parts[0] + sep + Join(sep, parts[1..])
  }

  /** PHP `str_replace($pat, $v, $s)` (and `preg_replace` of a literal
      pattern): every non-overlapping occurrence, scanning left to right. */
  function ReplaceAll(s: string, pat: string, v: string): (r: string)
    requires |pat| > 0
    decreases |s|
  {
    if |s| < |pat| then s
    else if s[..|pat|] == pat then v + ReplaceAll(s[|pat|..], pat, v)
    else [s[0]] + ReplaceAll(s[1..], pat, v)
  }

  /** Every character equal to `c` removed (`str_replace` with `''`). */
  function RemoveChar(s: string, c: char): (r: string)
    ensures c !in r
    ensures forall k :: 0 <= k < |r| ==> r[k] in s
  {
    if |s| == 0 then "" else (if s[0] == c then "" else [s[0]]) + RemoveChar(s[1..], c)
  }

  /** PHP `preg_split('~,\s*~', $s)`: split at every comma, dropping the
      whitespace that follows it; empty pieces are kept. */
  function SplitCommaSpaces(s: string): (parts: seq<string>)
    ensures |parts| >= 1
    ensures forall k :: 0 <= k < |parts| ==> ',' !in parts[k]
    decreases |s|
  {
    var k := FirstOf(s, {','});
    if k == |s| then [s]
    else
      var rest := s[k + 1..];
      [s[..k]] + SplitCommaSpaces(rest[SpaceRun(rest)..])
  }

  /** PHP `preg_split('~,\s?~', $s, null, PREG_SPLIT_NO_EMPTY)`: split at
      every comma, dropping at most one following whitespace character, and
      drop the empty pieces. */
  function SplitCommaOptSpace(s: string): (parts: seq<string>)
    ensures forall k :: 0 <= k < |parts| ==> parts[k] != "" && ',' !in parts[k]
    decreases |s|
  {
    var k := FirstOf(s, {','});
    var head := if k == 0 then [] else [s[..k]];
    if k == |s| then head
    else
      var rest := s[k + 1..];
      var skip := if |rest| > 0 && IsSpace(rest[0]) then 1 else 0;
      head + SplitCommaOptSpace(rest[skip..])
  }

  /** A list of non-empty items joined by `, ` starts with the first
      character of its first item, ends with the last character of its
      last item, and holds a character other than those of the separator
      only when an item holds it. */
  lemma {:induction false} JoinEnds(xs: seq<string>, c: char)
    requires |xs| > 0 && forall k :: 0 <= k < |xs| ==> xs[k] != "" && c !in xs[k]
    requires c != ',' && c != ' '
    ensures var j := Join(", ", xs); var last := xs[|xs| - 1];
            && |j| >= |xs[0]| && j[0] == xs[0][0] && j[|j| - 1] == last[|last| - 1] && c !in j
    decreases |xs|
  {
    if |xs| > 1 {
      JoinEnds(xs[1..], c);
      var j := Join(", ", xs[1..]);
      assert Join(", ", xs) == xs[0] + ", " + j;
      assert xs[1..][|xs[1..]| - 1] == xs[|xs| - 1];
    }
  }

  /** Splitting a list joined by `, ` gives the list back, when no item is
      empty or holds a comma. */
  lemma {:induction false} SplitCommaOptSpaceJoin(xs: seq<string>)
    requires forall k :: 0 <= k < |xs| ==> xs[k] != "" && ',' !in xs[k]
    ensures SplitCommaOptSpace(Join(", ", xs)) == xs
    decreases |xs|
  {
    if |xs| == 1 {
      SplitCommaOptSpaceSingle(xs[0]);
    } else if |xs| > 1 {
      assert Join(", ", xs) == xs[0] + ", " + Join(", ", xs[1..]);
      SplitCommaOptSpaceStep(xs[0], Join(", ", xs[1..]));
      SplitCommaOptSpaceJoin(xs[1..]);
      assert [xs[0]] + xs[1..] == xs;
    }
  }

  /** A single non-empty item without a comma splits into itself. */
  lemma SplitCommaOptSpaceSingle(x: string)
    requires x != "" && ',' !in x
    ensures SplitCommaOptSpace(x) == [x]
  {
    FirstOfUnique(x, {','}, |x|);
    assert x[..|x|] == x;
  }

  /** A first item `x` and `, ` before `j`: the split gives `x`, then the
      split of `j`. */
  lemma SplitCommaOptSpaceStep(x: string, j: string)
    requires x != "" && ',' !in x
    ensures SplitCommaOptSpace(x + ", " + j) == [x] + SplitCommaOptSpace(j)
  {
    CommaAfter(x, j);
    assert (" " + j)[1..] == j;
  }

  /** In `x, j`, with no comma in `x`, the first comma ends `x` and the
      text after it is ` j`. */
  lemma CommaAfter(x: string, j: string)
    requires ',' !in x
    ensures var s := x + ", " + j;
            && FirstOf(s, {','}) == |x| && s[..|x|] == x && s[|x| + 1..] == " " + j
  {
    var s := x + ", " + j;
    assert forall k :: 0 <= k < |x| ==> s[k] == x[k];
    FirstOfUnique(s, {','}, |x|);
    assert s[..|x|] == x;
    assert s[|x| + 1..] == " " + j;
  }

  /** Splitting a list joined by `, ` at commas and the whitespace after
      them gives the list back, when no item holds a comma and no item
      starts with whitespace. */
  lemma {:induction false} SplitCommaSpacesJoin(xs: seq<string>)
    requires |xs| > 0
    requires forall k :: 0 <= k < |xs| ==> ',' !in xs[k] && (xs[k] != "" ==> !IsSpace(xs[k][0]))
    ensures SplitCommaSpaces(Join(", ", xs)) == xs
    decreases |xs|
  {
    if |xs| == 1 {
      FirstOfUnique(xs[0], {','}, |xs[0]|);
      assert xs[0][..|xs[0]|] == xs[0];
    } else {
      var j := Join(", ", xs[1..]);
      var s := xs[0] + ", " + j;
      CommaAfter(xs[0], j);
      var rest := s[|xs[0]| + 1..];
      JoinStart(xs[1..]);
      assert rest[1..] == j;
      assert SpaceRun(rest[1..]) == 0;
      assert SpaceRun(rest) == 1;
      SplitCommaSpacesJoin(xs[1..]);
      assert [xs[0]] + xs[1..] == xs;
    }
  }

  /** A list joined by `, ` starts like its first item, or with the comma
      when that item is empty. */
  lemma JoinStart(xs: seq<string>)
    requires |xs| > 0
    requires forall k :: 0 <= k < |xs| ==> ',' !in xs[k] && (xs[k] != "" ==> !IsSpace(xs[k][0]))
    ensures var j := Join(", ", xs); j != "" ==> !IsSpace(j[0])
  {
    if |xs| > 1 && xs[0] == "" {
      assert Join(", ", xs)[0] == ',';
    } else if |xs| > 1 {
      assert Join(", ", xs)[0] == xs[0][0];
    }
  }

  /** PHP `preg_split('~\r\n|\n|\r~', $s)`. */
  function SplitLines(s: string): (lines: seq<string>)
    ensures |lines| >= 1
    ensures forall k :: 0 <= k < |lines| ==> '\n' !in lines[k] && '\r' !in lines[k]
    decreases |s|
  {
    var k := FirstOf(s, {'\n', '\r'});
    if k == |s| then [s]
    else
      var width := if s[k] == '\r' && k + 1 < |s| && s[k + 1] == '\n' then 2 else 1;
      [s[..k]] + SplitLines(s[k + width..])
  }

  lemma {:induction false} ReplaceAllAbsent(s: string, pat: string, v: string)
    requires |pat| > 0
    requires !Occurs(s, pat)
    ensures ReplaceAll(s, pat, v) == s
    decreases |s|
  {
    if |s| >= |pat| {
      assert !OccursAt(s, pat, 0);
      assert !Occurs(s[1..], pat) by {
        forall k | 0 <= k <= |s[1..]| && OccursAt(s[1..], pat, k)
          ensures false
        {
          assert s[1..][k..k + |pat|] == s[k + 1..k + 1 + |pat|];
          assert OccursAt(s, pat, k + 1);
        }
      }
      ReplaceAllAbsent(s[1..], pat, v);
      assert [s[0]] + s[1..] == s;
    }
  }

  /** The replacement passes over a prefix `a` at which no occurrence of
      `pat` starts. */
  lemma {:induction false} ReplaceAllSkip(a: string, b: string, pat: string, v: string)
    requires |pat| > 0
    requires forall k :: 0 <= k < |a| ==> !OccursAt(a + b, pat, k)
    ensures ReplaceAll(a + b, pat, v) == a + ReplaceAll(b, pat, v)
    decreases |a|
  {
    if |a| > 0 {
      var s := a + b;
      if |s| >= |pat| {
        assert !OccursAt(s, pat, 0);
        assert s[1..] == a[1..] + b;
        forall k | 0 <= k < |a[1..]|
          ensures !OccursAt(a[1..] + b, pat, k)
        {
          assert !OccursAt(s, pat, k + 1);
          if k + |pat| <= |a[1..] + b| {
            assert (a[1..] + b)[k..k + |pat|] == s[k + 1..k + 1 + |pat|];
          }
        }
        ReplaceAllSkip(a[1..], b, pat, v);
        assert ReplaceAll(s, pat, v) == [s[0]] + ReplaceAll(s[1..], pat, v);
        assert a == [s[0]] + a[1..];
      } else {
        assert ReplaceAll(b, pat, v) == b;
      }
    } else {
      assert a + b == b;
    }
  }

  /** No occurrence of `pat` starts inside a part that holds none, when the
      text after the part starts with `pat` and the first character of `pat`
      does not recur in it. */
  lemma NoStraddle(a: string, b: string, pat: string, k: nat)
    requires |pat| > 0 && StartsWith(b, pat) && !Occurs(a, pat) && k < |a|
    requires forall j :: 0 < j < |pat| ==> pat[j] != pat[0]
    ensures !OccursAt(a + b, pat, k)
  {
    var s := a + b;
    if k + |pat| <= |a| {
      assert s[k..k + |pat|] == a[k..k + |pat|];
      assert !OccursAt(a, pat, k);
    } else if k + |pat| <= |s| {
      var d := |a| - k;
      assert s[k..k + |pat|][d] == s[|a|] == b[0] == pat[0];
      assert pat[d] != pat[0];
    }
  }

  /** Replacing a pattern that only occurs as the separator of a join
      replaces every separator, and nothing else. */
  lemma {:induction false} ReplaceAllJoin(pat: string, v: string, parts: seq<string>)
    requires |pat| > 0
    requires forall j :: 0 < j < |pat| ==> pat[j] != pat[0]
    requires forall i :: 0 <= i < |parts| ==> !Occurs(parts[i], pat)
    ensures ReplaceAll(Join(pat, parts), pat, v) == Join(v, parts)
    decreases |parts|
  {
    if |parts| == 1 {
      ReplaceAllAbsent(parts[0], pat, v);
    } else if |parts| >= 2 {
      var rest := Join(pat, parts[1..]);
      assert Join(pat, parts) == parts[0] + (pat + rest);
      ReplaceSeparator(parts[0], rest, pat, v);
      ReplaceAllJoin(pat, v, parts[1..]);
    }
  }

  /** One step of `ReplaceAllJoin`: the first part is kept and the
      separator after it is replaced. */
  lemma ReplaceSeparator(a: string, rest: string, pat: string, v: string)
    requires |pat| > 0 && !Occurs(a, pat)
    requires forall j :: 0 < j < |pat| ==> pat[j] != pat[0]
    ensures ReplaceAll(a + (pat + rest), pat, v) == a + v + ReplaceAll(rest, pat, v)
  {
    assert (pat + rest)[..|pat|] == pat;
    forall k | 0 <= k < |a|
      ensures !OccursAt(a + (pat + rest), pat, k)
    {
      NoStraddle(a, pat + rest, pat, k);
    }
    ReplaceAllSkip(a, pat + rest, pat, v);
    assert (pat + rest)[|pat|..] == rest;
  }

  /** Splitting on line breaks and joining with a line feed gives the text
      back, when the text uses line feeds only. */
  lemma {:induction false} SplitLinesJoin(s: string)
    requires '\r' !in s
    ensures Join("\n", SplitLines(s)) == s
    decreases |s|
  {
    var k := FirstOf(s, {'\n', '\r'});
    if k < |s| {
      assert s[k] == '\n';
      var rest := s[k + 1..];
      assert '\r' !in rest by {
        forall j | 0 <= j < |rest| ensures rest[j] != '\r' {
          assert rest[j] == s[k + 1 + j];
        }
      }
      var tail := SplitLines(rest);
      var parts := SplitLines(s);
      assert parts == [s[..k]] + tail;
      assert parts[1..] == tail;
      assert |parts| >= 2;
      assert Join("\n", parts) == s[..k] + "\n" + Join("\n", tail);
      SplitLinesJoin(rest);
      assert s == s[..k] + "\n" + rest;
    }
  }
}
